=== FILE: README.md ===
# flume-s3-sink: a Dafny model of the local buffering pipeline

This project models the core of a Flume sink that stages events in local
files and ships them to Amazon S3, and proves properties of that model. It
has four parts:

- **The handle cache** (`WriterLinkedHashMap`): a bounded, access-ordered
  map from local path to open output handle. Inserting past `maxOpenFiles`
  closes and drops the least recently used handle.
- **The ingestion step** (`S3Sink.process`): the backpressure guard, the
  bounded batch loop, the local-path formula, get-or-create through the
  cache, the appended `body ++ "\n"` record, the batch counters, and
  commit, rollback and the returned status.
- **The roll cycle** (`FileRoller.roll`): the listing of non-hidden files,
  the upload flag, closing the cache, one task per file (compress, upload,
  delete, count), and rotation of the batch identifier by the last task.
  `S3Sink.start` runs one roll first and then schedules periodic ones.
- **Pure helpers**: object-key derivation (`AWSS3Writer.upload`), codec
  selection (`CompressorFactory.getInstance`) and identifier rendering
  (`FileNameIdentifier`).

Modules follow the program's structure:

- `Prelude`: `Option`, bytes, paths.
- `WriterCache`: the LRU cache.
- `LocalStore`: files, handles, close and flush.
- `BatchIdentifier`.
- `Codecs`.
- `ObjectKey`.
- `FileNames`: `getName`, `isHidden`, `getExtension`.
- `SinkState`: the shared state and its invariant.
- `Ingestion`: `process`.
- `Roller`: `roll`, its tasks, and `start`.
- `StuckRoll`: what a stuck transaction flag does to a roll.

The threads are sequentialised:

- each `process` call, each roll start and each upload task is one atomic step;
- the order in which the pool runs the tasks is an input;
- so are these outcomes:
  - where an exception hits the batch;
  - which handle closes fail;
  - what the compressor and the store do;
  - the clock.

A handle buffers its bytes until it is closed. `Content` (file bytes
followed by the bytes still buffered) is the view under which "no byte is
lost" is stated.

Two details of the code shape the model:

- A codec name `gzip` selects the passthrough, because only names ending in
  `gz` select GZIP (`Codecs.OtherNamesSelectNull`).
- `GizCompressor.java` declares a class `GzipCompressor`, while the factory
  instantiates `GizCompressor`. The model treats both names as the one GZIP
  variant.

`Ingestion.StepAsWritten` is the whole of `S3Sink.process` as the code has
it, including failures of the transaction's own `begin` and `close`; such a
failure leaves the transaction flag raised (see Findings below).
`Ingestion.Step` is the corrected step, which lowers the flag on every exit.
`Ingestion.Process` is the body both share when those two calls succeed.
A roll raises the upload flag and then waits for the transaction flag to
come down. Steps are atomic, so that flag is only seen raised when a step
left it raised. `Roller.RollBegin` therefore stops at the wait in that
case, and `StuckRoll` shows the wait never ends.

## Model

| member | source | states |
|---|---|---|
| WriterCache.New | src/main/java/com/tml/sinks/WriterLinkedHashMap.java:22-25 | a new cache is empty and well-formed, bounded by `maxOpenFiles` |
| WriterCache.Get | src/main/java/com/tml/sinks/WriterLinkedHashMap.java:23 | a present key yields its handle and becomes most recently used, with the handles and size unchanged; a missing key yields nothing and changes nothing |
| WriterCache.Put | src/main/java/com/tml/sinks/WriterLinkedHashMap.java:39-55 | replacing a present key returns the old handle, never evicts, and moves the key to the most-recently-used end with the other keys in their relative order; a new key evicts nothing while the size stays within the bound; a new key that overflows evicts exactly the eldest entry (the new one itself when the bound is 0) and every other entry keeps its handle and relative order; the bound always holds |
| WriterCache.EvictsLeastRecentlyUsed | src/main/java/com/tml/sinks/WriterLinkedHashMap.java:40-51 | the evicted key was last used before every key that stays, the inserted one included |
| WriterCache.ReplayOrderedByRecency | src/main/java/com/tml/sinks/WriterLinkedHashMap.java:23 | after any sequence of gets and puts from a fresh cache, the order is strictly increasing in time of last access |
| WriterCache.CloseAll | src/main/java/com/tml/sinks/WriterLinkedHashMap.java:27-37 | every entry is handed out for closing exactly once, and the cache is left empty |
| LocalStore.Close | src/main/java/com/tml/sinks/WriterLinkedHashMap.java:44-51 | a clean close appends the handle's buffer to its file, creating it if needed; a failed close leaves the files as they were; no other file changes |
| LocalStore.CloseEach | src/main/java/com/tml/sinks/WriterLinkedHashMap.java:27-37 | closing a sequence of handles deletes no file and creates none but the closed handles' files |
| LocalStore.CloseAllFlushes | src/main/java/com/tml/sinks/WriterLinkedHashMap.java:27-37 | after closing every handle, each file holds its old bytes followed by its handle's buffer, unless that close failed; the remaining handles are closed either way |
| BatchIdentifier.Decimal | src/main/java/com/tml/sinks/FileNameIdentifier.java:18 | the decimal text of a reading is non-empty, all digits, and has no leading zero except for 0 |
| BatchIdentifier.ParseDecimal | src/main/java/com/tml/sinks/FileNameIdentifier.java:18 | reading the identifier back yields the clock reading |
| BatchIdentifier.Generate | src/main/java/com/tml/sinks/FileNameIdentifier.java:17-19 | a generated identifier is digits only and reads back as the clock value |
| BatchIdentifier.RotationChangesIdentifier | src/main/java/com/tml/sinks/FileNameIdentifier.java:18 | two generations give the same identifier exactly when they read the same millisecond |
| Codecs.GetInstance | src/main/java/com/tml/sinks/CompressorFactory.java:9-17 | GZIP exactly when the name is present, not blank, not a case-insensitive suffix of the default codec name, and ends in "gz" ignoring case; the passthrough otherwise |
| Codecs.CaseInsensitive | src/main/java/com/tml/sinks/CompressorFactory.java:10-13 | for every default codec name and every configured name, folding both to small letters selects the same variant |
| Codecs.BlankSelectsNull | src/main/java/com/tml/sinks/CompressorFactory.java:10-11 | a null, empty or whitespace-only name selects the passthrough |
| Codecs.DefaultSuffixSelectsNull | src/main/java/com/tml/sinks/CompressorFactory.java:10-11 | a name the default codec name ends with selects the passthrough, before the gz rule |
| Codecs.GzSelectsGzip | src/test/java/com/tml/sinks/CompressorFactoryTests.java:11-14 | "gz" selects GZIP whenever the default codec name does not end in "gz" |
| Codecs.GzIgnoresCase | src/main/java/com/tml/sinks/CompressorFactory.java:13-14 | "GZ" and "data.Gz" select GZIP |
| Codecs.OtherNamesSelectNull | src/main/java/com/tml/sinks/CompressorFactory.java:13-16 | "gzip" and "hello" select the passthrough |
| ObjectKey.UploadRequest | src/main/java/com/tml/sinks/AWSS3Writer.java:31-34 | the bucket and the file reach the store call unchanged; the key is never longer than the path, and is the whole path when the base does not occur in it |
| ObjectKey.Strip | src/main/java/com/tml/sinks/AWSS3Writer.java:33 | deleting every occurrence of the base from the path never lengthens it |
| ObjectKey.StripLength | src/main/java/com/tml/sinks/AWSS3Writer.java:33 | the key length is the path length minus one base length per deleted occurrence |
| ObjectKey.KeyOfForeignPath | src/main/java/com/tml/sinks/AWSS3Writer.java:33 | a path not containing the base is its own key |
| ObjectKey.OccurrenceShortens | src/main/java/com/tml/sinks/AWSS3Writer.java:33 | a path containing a non-empty base gets a strictly shorter key |
| ObjectKey.StripIdentity | src/main/java/com/tml/sinks/AWSS3Writer.java:33 | the key equals the path if and only if the base is empty or does not occur in it |
| ObjectKey.KeyOfBasePath | src/main/java/com/tml/sinks/AWSS3Writer.java:33 | for a path `base ++ rest` with the base nowhere in `rest`, the key is exactly `rest` |
| FileNames.GzArtifactIsNotRecompressed | src/main/java/com/tml/sinks/FileRoller.java:49-52 | a compressed artifact has extension "gz", so a later roll uploads it as is |
| FileNames.GzSuffixExtension | src/main/java/com/tml/sinks/FileRoller.java:50-51 | any name followed by ".gz" has extension "gz" |
| FileNames.GzHiddenIffHidden | src/main/java/com/tml/sinks/FileRoller.java:68-71 | a file's artifact is hidden exactly when the file is |
| FileNames.Name | src/main/java/com/tml/sinks/FileRoller.java:50 | the name is the whole text after the last separator: a tail of the path holding no separator and preceded by one, or the whole path when it has no separator |
| FileNames.Hidden | src/main/java/com/tml/sinks/FileRoller.java:68-71 | a hidden path contains a dot, and a path without separator is hidden exactly when it starts with a dot |
| FileNames.HiddenIffDotted | src/main/java/com/tml/sinks/FileRoller.java:68-71 | a path is hidden exactly when its last component starts with a dot, that is, some dot begins the path or follows a separator and no separator comes after it |
| FileNames.Extension | src/main/java/com/tml/sinks/FileRoller.java:50-51 | the extension is the text after the last dot of the name: a dot-free tail preceded by a dot, and empty when the name has no dot |
| SinkState.Fresh | src/main/java/com/tml/sinks/FileNameIdentifier.java:9-11 | a configured sink already holds an identifier for the clock reading, has an empty cache and satisfies the invariant |
| Ingestion.PathSeparatesBatches | src/main/java/com/tml/sinks/S3Sink.java:176-177 | the same event's local path under two identifiers is the same exactly when the identifiers are equal |
| Ingestion.LocalPath | src/main/java/com/tml/sinks/S3Sink.java:172-177 | the local path starts with the base directory and ends with the escaped suffix |
| Ingestion.Admit | src/main/java/com/tml/sinks/S3Sink.java:178-199 | the get-or-create step keeps the cache well-formed and within its bound, and touches nothing but the cache and the files |
| Ingestion.WriteRecord | src/main/java/com/tml/sinks/S3Sink.java:214-215 | a write appends the bytes to the buffer of the path's open handle and changes nothing else: the key set, the order and the other handles stay; without an open handle nothing changes |
| Ingestion.Tally | src/main/java/com/tml/sinks/S3Sink.java:219-225 | each event bumps exactly one of the three batch counters: "batch empty" exactly for the first event, "batch complete" exactly at index `batchSize`, "underflow" otherwise; the other counters stay |
| Ingestion.ApplyEvent | src/main/java/com/tml/sinks/S3Sink.java:178-225 | one event keeps the cache well-formed within its bound and changes only the files, the cache and the counters |
| Ingestion.Ingest | src/main/java/com/tml/sinks/S3Sink.java:165-226 | the batch loop keeps the cache well-formed and changes only files, cache and counters |
| Ingestion.Process | src/main/java/com/tml/sinks/S3Sink.java:151-266 | backs off untouched while uploading; otherwise, with the transaction's begin and close succeeding, the transaction flag is down when the step ends; READY exactly when at least one event was taken without a fault, and then the channel loses exactly the events taken; otherwise the channel is rolled back; the step throws exactly on a non-I/O fault |
| Ingestion.TakeBatch | src/main/java/com/tml/sinks/S3Sink.java:165-226 | the event-by-event loop stops after min(batchSize, channel length) events, which its invariant ties to the batch specification; a fault ends the step with the outcome `Process` prescribes |
| Ingestion.TakeOne | src/main/java/com/tml/sinks/S3Sink.java:178-225 | the imperative loop body computes one event's step as specified, and never bumps "batch complete", since the loop guard keeps the index below `batchSize` |
| Ingestion.RunProcess | src/main/java/com/tml/sinks/S3Sink.java:151-266 | the imperative step computes the outcome `Process` specifies, and a READY batch never bumps the "batch complete" counter |
| Ingestion.AdmitKeepsContent | src/main/java/com/tml/sinks/S3Sink.java:178-199 | with room for one handle and a clean close, get-or-create loses and adds no byte, and leaves the path with an open handle |
| Ingestion.EvictKeepsContent | src/main/java/com/tml/sinks/WriterLinkedHashMap.java:41-51 | evicting and closing the eldest handle moves its buffer into its file |
| Ingestion.FailedCloseLosesBuffer | src/main/java/com/tml/sinks/WriterLinkedHashMap.java:45-51 | an eviction whose close fails still removes the entry, and its buffered bytes are lost |
| Ingestion.EventContent | src/main/java/com/tml/sinks/S3Sink.java:178-215 | with room for one handle and no failing eviction close, one event appends `body ++ "\n"` to its own file and changes no other file |
| Ingestion.IngestContent | src/main/java/com/tml/sinks/S3Sink.java:165-215 | with room for one handle and clean closes, every file gains exactly the records routed to it, in order, across evictions |
| Ingestion.ZeroCapacityLosesRecord | src/main/java/com/tml/sinks/WriterLinkedHashMap.java:41-51 | with `maxOpenFiles` 0 the new handle is evicted by its own insertion, and the record reaches no file |
| Ingestion.IngestCounters | src/main/java/com/tml/sinks/S3Sink.java:219-225 | n ≥ 1 events in one batch add 1 to "batch empty" and n-1 to "underflow", and "batch complete" never moves |
| Ingestion.IngestKeepsFiles | src/main/java/com/tml/sinks/S3Sink.java:180-195 | the loop deletes no file and opens handles only on existing files |
| Ingestion.ProcessPreservesInv | src/main/java/com/tml/sinks/S3Sink.java:151-266 | one step keeps the sink invariant |
| Ingestion.ProcessDelivers | src/main/java/com/tml/sinks/S3Sink.java:238-246 | with room for one handle and no failing eviction close, a READY commit removes exactly the taken events from the channel, appends their records in order, adds n to "drain success", and bumps the batch counters as stated |
| Ingestion.CommitCounters | src/main/java/com/tml/sinks/S3Sink.java:219-245 | a READY commit of n events adds n to "drain success", 1 to "batch empty" and n-1 to "underflow", and leaves "batch complete" alone |
| Ingestion.RollbackKeepsWrittenRecords | src/main/java/com/tml/sinks/S3Sink.java:248-261 | with room for one handle and no failing eviction close, after a fault the channel keeps every event, yet the records written before the fault stay in the files |
| Ingestion.StepAsWritten | src/main/java/com/tml/sinks/S3Sink.java:157-265 | with the transaction's begin and close succeeding the step is `Process`; when either fails on a step that does not back off, the step throws and leaves the transaction flag raised |
| Ingestion.StuckTransactionFlag | src/main/java/com/tml/sinks/S3Sink.java:157-160 | from any invariant state not uploading, a failing begin or close ends the step with the transaction flag raised, outside the sink invariant |
| Ingestion.StuckFlagOutlastsRoll | src/main/java/com/tml/sinks/S3Sink.java:152-155 | with both the upload flag and the transaction flag up, a step as coded backs off before the transaction and leaves the sink and the channel as they are |
| Ingestion.ProcessKeepsCache | src/main/java/com/tml/sinks/S3Sink.java:151-267 | a step leaves the handle cache well formed, with its bound unchanged |
| StuckRoll.RollHangsAfterStuckStep | src/main/java/com/tml/sinks/FileRoller.java:28-40 | from an invariant state not uploading, a step whose begin or close fails, followed by a roll with files to upload, leaves the roll in its wait: both flags up and no cycle running; after a failing begin, the files and the cache are as they were |
| StuckRoll.HungIsStable | src/main/java/com/tml/sinks/FileRoller.java:34-40 | in the wait, a step as coded backs off and a roll finds one in flight, so neither changes the sink |
| StuckRoll.HungForever | src/main/java/com/tml/sinks/FileRoller.java:39-40 | once in the wait, any sequence of later steps and rolls leaves the sink exactly as it is, so no flag is ever lowered and no task ever runs |
| StuckRoll.CorrectedStepNeverHangs | src/main/java/com/tml/sinks/S3Sink.java:157-265 | from the sink invariant, neither a roll nor a corrected step followed by a roll reaches the wait with the transaction flag up |
| Ingestion.Step | src/main/java/com/tml/sinks/S3Sink.java:151-266 | the step with the flag lowered on every exit: it is `Process` when nothing fails in the transaction itself; a failing begin leaves the sink untouched and throws; a failing close throws after the body's effects |
| Ingestion.StepPreservesInv | src/main/java/com/tml/sinks/S3Sink.java:262-265 | every step of the corrected sink keeps the sink invariant, whatever fails |
| Roller.Snapshot | src/main/java/com/tml/sinks/FileRoller.java:68-71 | the listing is exactly the non-hidden files |
| Roller.RollBegin | src/main/java/com/tml/sinks/FileRoller.java:28-47 | with nothing to upload, or while uploading, nothing changes; otherwise the flag goes up; with the transaction flag up, the roll stops at the wait and nothing else changes; with it down, the cache is emptied and a cycle starts whose task count equals the number of listed files |
| Roller.RollFlushes | src/main/java/com/tml/sinks/FileRoller.java:39-44 | once past the wait, starting a roll writes each cleanly closed handle's buffer to its file, so the file holds the content the sink had; a roll stopped at the wait leaves every file as it is |
| Roller.RollKeepsListing | src/main/java/com/tml/sinks/FileRoller.java:28-44 | closing the cache adds no file, so the listing taken before it stays exact |
| Roller.RollBeginPreservesInv | src/main/java/com/tml/sinks/FileRoller.java:28-47 | starting a roll keeps the sink invariant |
| Roller.CompressStage | src/main/java/com/tml/sinks/FileRoller.java:49-52 | a ".gz" file, or any file under the passthrough, is uploaded as itself; under GZIP the artifact next to it is written and uploaded, and a compressor failure leaves nothing to upload |
| Roller.UploadStage | src/main/java/com/tml/sinks/FileRoller.java:53-55 | only a successful upload of an existing file changes the store or deletes anything, and then the store holds the file's bytes under the key derived from its path, and both local files are gone (the path is taken as the file's absolute path, see Left out) |
| Roller.Finish | src/main/java/com/tml/sinks/FileRoller.java:56-63 | every task counts once; the cycle ends exactly at the last task, which lowers the flag and rotates the identifier |
| Roller.RunTask | src/main/java/com/tml/sinks/FileRoller.java:47-65 | a task leaves the cache and the counters alone |
| Roller.RunTasks | src/main/java/com/tml/sinks/FileRoller.java:46-65 | running a sequence of tasks leaves the cache, the counters and the transaction flag alone |
| Roller.TaskFrame | src/main/java/com/tml/sinks/FileRoller.java:49-55 | a task touches no file except its own and its artifact |
| Roller.UploadFrame | src/main/java/com/tml/sinks/FileRoller.java:53-55 | the upload stage deletes no file but the task's own and the uploaded one |
| Roller.DeletesOnlyAfterUpload | src/main/java/com/tml/sinks/FileRoller.java:53-55 | the file is deleted if and only if its upload succeeded; a failed task keeps the file and its bytes and leaves the store alone |
| Roller.UploadsFileAsIs | src/main/java/com/tml/sinks/FileRoller.java:49-54 | under the passthrough, or for a ".gz" file, the store receives the file's own bytes under its key |
| Roller.UploadsArtifact | src/main/java/com/tml/sinks/FileRoller.java:49-55 | under GZIP the store receives the compressor's output under the artifact's key; on a failed upload the artifact stays on disk |
| Roller.HiddenFilesUntouched | src/main/java/com/tml/sinks/FileRoller.java:68-71 | no task changes a hidden file |
| Roller.TaskPreservesInv | src/main/java/com/tml/sinks/FileRoller.java:56-63 | every task keeps the sink invariant |
| Roller.RunTasksCount | src/main/java/com/tml/sinks/FileRoller.java:56-63 | k tasks of a cycle with more than k files pending leave the flag up and k fewer files pending; as many tasks as files pending end the cycle |
| Roller.CycleReleasesOnce | src/main/java/com/tml/sinks/FileRoller.java:56-63 | running each pending task once, in any order, keeps the flag up until the last task, which alone lowers it and rotates the identifier |
| Roller.RolledFileArrives | src/main/java/com/tml/sinks/FileRoller.java:44-54 | under the passthrough, a listed file whose handle closes cleanly reaches the store, under the key derived from its path, holding exactly the content the sink had for it, and is deleted locally (for normalised paths under the base directory) |
| Roller.Start | src/main/java/com/tml/sinks/S3Sink.java:104-145 | start rolls once over the existing files before taking events (a cycle over every non-hidden file, if any); periodic rolls are scheduled exactly when the interval is positive |

## Left out

- Real concurrency. Each `process` call, roll start and task is atomic. The following races are out of scope:
  - the busy-wait on a transaction still running in another thread (with atomic steps the wait is reached only over a flag a step left raised, and that case is modelled as a wait that never ends);
  - the non-atomic check-then-set of the upload flag;
  - the window between the two flags;
  - the split `getAndIncrement`/`get`, which under true parallelism can rotate twice;
  - the unused `sfWritersLock`.
- The thread pools and the fixed-rate scheduler. `Roller.Start` records only whether periodic rolls are scheduled; each periodic roll is a `RollBegin`.
- The AWS client, credentials and the `putObject` I/O. The store is a map from key to bytes for the one configured bucket, and success is an input.
- GZIP byte encoding. The compressor's output is an input (`Compression`).
- Partial GZIP artifacts. A compressor failure can leave a partial `.gz` file behind; the model leaves the files unchanged in that case.
- NullCompressor, FileCompressor and the value of DEFAULT_CODEC are not part of this model:
  - the passthrough is taken to return the same file;
  - the default codec name is a parameter.
- Flume's `BucketPath.escapeString` is the parameter `Config.escape`.
- `FileUtils.listFiles` is the key set of the file map.
- Path normalisation. Paths are plain strings, assumed normalised (no doubled separator, no `.` or `..` component) and lying under the base directory. Under that assumption the lookup path, the `File` that `listFiles` returns and its `getAbsolutePath()` are the same string. A base directory without a trailing separator, or a path template that doubles the separator, breaks this, and the source then differs from the model: it uploads under a different object key, opens a second handle on the same file, or never lists the file.
- Roller.RolledFileArrives: holds for normalised paths under the base directory only, as the line above says.
- Roller.UploadStage: derives the object key from the path string, taken to be the file's absolute path, as the line on path normalisation says.
- The file separator is fixed to `/`. `File.isHidden` is "the name starts with a dot".
- The model's `Codecs.EndsWithIgnoreCase` folds ASCII letters only; the library's full Unicode case folding is left out.
- Ingestion.Process: a throwable is modelled only while one of the first min(batchSize, channel length) events is handled. A failing `take` that would have returned null, and a failing `commit`, are left out. A failing `getChannel`, `getTransaction`, `begin` or `close` is modelled by `Ingestion.Step` and `Ingestion.StepAsWritten`.
- Ingestion.Process: an I/O error is modelled after the handle was admitted and before anything is written. Failures of `mkdirs`, `createNewFile` and the stream constructor, and partial writes, are folded into it.
- Negative `batchSize` and `maxOpenFiles`: both are natural numbers here.
- Long overflow of the counters and of the clock.
- `BufferedOutputStream` buffer sizes and flush timing. Bytes reach a file when its handle is closed.
- Logging, the thread interrupt flag set on close failures, `configure()` parsing and its preconditions, `getBatchSize` (a constant 0), the `SinkCounter` and `Transaction` classes (replaced by plain counters and a channel sequence), and Error versus `EventDeliveryException` (both are `Thrown`).
- `getIdentifier` is the field read `identifier.value`.
- Roller.HiddenFilesUntouched: requires the task's file to have a non-empty name. A path ending in the separator is not a file.
- Roller.CycleReleasesOnce: requires the task order to list as many distinct pending files as are pending, that is, each pending file once. A pool that drops tasks is left out.

## Findings

| source | as written | input that shows it | evidently intended | confidence | as-written member | corrected member |
|---|---|---|---|---|---|---|
| src/main/java/com/tml/sinks/S3Sink.java:157-265 | the transaction flag is raised before `getChannel`, `getTransaction` and `begin`, which lie outside the guarded block, and is lowered only after `transaction.close()` in the final block | a step that is not backing off whose `begin` (or `close`) throws leaves the flag raised; if a roll with files to upload starts before the next step gets past `begin` (which raises the flag again and, on success, lowers it), the roll raises the upload flag and spins at FileRoller.java:40 for ever, and every later step backs off (`StuckRoll.HungForever`) | the transaction flag is lowered on every exit of the step | high (not executed) | StuckRoll.RollHangsAfterStuckStep | StuckRoll.CorrectedStepNeverHangs |

=== FILE: batch_identifier.dfy ===
/**
 The batch identifier embedded in every local file name (FileNameIdentifier).
 It is the decimal text of a millisecond clock reading; the clock is an input.
 */
module BatchIdentifier {

  datatype Identifier = Identifier(value: string)

  predicate IsDigit(c: char) {
    '0' <= c <= '9'
  }

  predicate AllDigits(s: string) {
    forall i :: 0 <= i < |s| ==> IsDigit(s[i])
  }

  function DigitChar(d: nat): (c: char)
    requires d < 10
    ensures IsDigit(c)
  {
    "0123456789"[d]
  }

  function DigitValue(c: char): (d: nat)
    requires IsDigit(c)
    ensures d < 10
  {
    (c as int) - ('0' as int)
  }

  lemma DigitRoundTrip(d: nat)
    requires d < 10
    ensures DigitValue(DigitChar(d)) == d
  {
  }

  /**
   String.valueOf of a non-negative long: at least one digit, nothing but
   digits, and a leading zero only for zero itself.
   */
  function Decimal(n: nat): (r: string)
    ensures |r| >= 1 && AllDigits(r)
    ensures r[0] == '0' ==> n == 0
    decreases n
  {
    if n < 10 then [DigitChar(n)] else Decimal(n / 10) + [DigitChar(n % 10)]
  }

  /** Reads a string of digits as a number. */
  function Parse(s: string): nat
    requires AllDigits(s)
    decreases |s|
  {
    if s == [] then 0 else Parse(s[..|s| - 1]) * 10 + DigitValue(s[|s| - 1])
  }

  /** Reading the rendered identifier back yields the clock reading. */
  lemma {:induction false} ParseDecimal(n: nat)
    ensures Parse(Decimal(n)) == n
    decreases n
  {
    if n >= 10 {
      var r := Decimal(n);
      var front := Decimal(n / 10);
      assert r == front + [DigitChar(n % 10)];
      assert r[..|r| - 1] == front;
      assert Parse(r) == Parse(front) * 10 + DigitValue(DigitChar(n % 10));
      ParseDecimal(n / 10);
      DigitRoundTrip(n % 10);
      assert (n / 10) * 10 + n % 10 == n;
    } else {
      DigitRoundTrip(n);
      assert Decimal(n)[..0] == [];
    }
  }

  /** Distinct clock readings give distinct identifiers; equal readings give equal ones. */
  lemma DecimalInjective(m: nat, n: nat)
    ensures Decimal(m) == Decimal(n) <==> m == n
  {
    if Decimal(m) == Decimal(n) {
      ParseDecimal(m);
      ParseDecimal(n);
    }
  }

  /**
   The FileNameIdentifier constructor and generateNewIdentifier: the identifier
   becomes the decimal text of the clock reading, so it is digits only and
   reads back as that reading.
   */
  function Generate(clock: nat): (id: Identifier)
    ensures |id.value| >= 1 && AllDigits(id.value)
    ensures Parse(id.value) == clock
  {
    ParseDecimal(clock);
    Identifier(Decimal(clock))
  }

  /** Two rotations give the same identifier exactly when they read the same millisecond. */
  lemma RotationChangesIdentifier(before: nat, after: nat)
    ensures Generate(before) == Generate(after) <==> before == after
  {
    DecimalInjective(before, after);
  }
}

=== FILE: codecs.dfy ===
/**
 Choosing the compressor from the configured codec name (CompressorFactory),
 with the Apache Commons StringUtils predicates it relies on.
 */
module Codecs {
  import opened Prelude

  /** The two FileCompressor variants: a passthrough and GZIP. */
  datatype Codec = NullCodec | GzipCodec

  /** Character.isWhitespace: space separators other than the no-break ones, and the ASCII controls it lists. */
  predicate IsWhitespace(c: char) {
    || c == ' '
    || '\t' <= c <= '\r'
    || '\U{1C}' <= c <= '\U{1F}'
    || c == '\U{1680}'
    || '\U{2000}' <= c <= '\U{2006}'
    || '\U{2008}' <= c <= '\U{200A}'
    || c == '\U{2028}' || c == '\U{2029}'
    || c == '\U{205F}' || c == '\U{3000}'
  }

  /** StringUtils.isBlank: null, empty, or whitespace only. */
  predicate IsBlank(s: Option<string>) {
    s.None? || forall i :: 0 <= i < |s.value| ==> IsWhitespace(s.value[i])
  }

  function Lower(c: char): char {
    if 'A' <= c <= 'Z' then ((c as int) + 32) as char else c
  }

  /** `s` with every ASCII capital replaced by its small letter. */
  function LowerAll(s: string): (r: string)
    ensures |r| == |s| && forall i :: 0 <= i < |s| ==> r[i] == Lower(s[i])
  {
    seq(|s|, i requires 0 <= i < |s| => Lower(s[i]))
  }

  /** StringUtils.endsWithIgnoreCase(str, suffix), comparing letters case-insensitively. */
  predicate EndsWithIgnoreCase(str: string, suffix: string) {
    && |suffix| <= |str|
    && forall i :: 0 <= i < |suffix| ==> Lower(str[|str| - |suffix| + i]) == Lower(suffix[i])
  }

  /**
   CompressorFactory.getInstance. Gzip is chosen only for a name that is not
   blank, is not a case-insensitive suffix of the default codec name, and
   ends in "gz" ignoring case; every other name, null included, gets the
   passthrough. The result is always one of the two variants.
   */
  function GetInstance(defaultCodec: string, name: Option<string>): (c: Codec)
    ensures c == GzipCodec <==>
              name.Some? && !IsBlank(name)
              && !EndsWithIgnoreCase(defaultCodec, name.value)
              && EndsWithIgnoreCase(name.value, "gz")
  {
    if IsBlank(name) || EndsWithIgnoreCase(defaultCodec, name.value) then NullCodec
    else if EndsWithIgnoreCase(name.value, "gz") then GzipCodec
    else NullCodec
  }

  /** A blank or missing codec name selects the passthrough. */
  lemma BlankSelectsNull(defaultCodec: string, name: Option<string>)
    requires IsBlank(name)
    ensures GetInstance(defaultCodec, name) == NullCodec
  {
  }

  /**
   A name the default codec name ends with is checked first and selects the
   passthrough, even when it ends in "gz".
   */
  lemma DefaultSuffixSelectsNull(defaultCodec: string, name: string)
    requires EndsWithIgnoreCase(defaultCodec, name)
    ensures GetInstance(defaultCodec, Some(name)) == NullCodec
  {
  }

  /** "gz" selects GZIP whenever the default codec name does not itself end in "gz". */
  lemma GzSelectsGzip(defaultCodec: string)
    requires !EndsWithIgnoreCase(defaultCodec, "gz")
    ensures GetInstance(defaultCodec, Some("gz")) == GzipCodec
  {
    assert !IsBlank(Some("gz")) by {
      assert !IsWhitespace("gz"[0]);
    }
  }

  /** "GZ" and "data.Gz" select GZIP too: the suffix test ignores case. */
  lemma GzIgnoresCase(defaultCodec: string)
    requires !EndsWithIgnoreCase(defaultCodec, "GZ") && !EndsWithIgnoreCase(defaultCodec, "data.Gz")
    ensures GetInstance(defaultCodec, Some("GZ")) == GzipCodec
    ensures GetInstance(defaultCodec, Some("data.Gz")) == GzipCodec
  {
    assert !IsWhitespace("GZ"[0]);
    assert !IsWhitespace("data.Gz"[0]);
  }

  /**
   The choice ignores case throughout: folding both the default codec name
   and the configured name to small letters never changes the variant chosen.
   */
  lemma CaseInsensitive(defaultCodec: string, name: string)
    ensures GetInstance(defaultCodec, Some(name)) == GetInstance(LowerAll(defaultCodec), Some(LowerAll(name)))
  {
    var d, n := LowerAll(defaultCodec), LowerAll(name);
    assert IsBlank(Some(name)) <==> IsBlank(Some(n)) by {
      forall i | 0 <= i < |name| ensures IsWhitespace(name[i]) <==> IsWhitespace(n[i]) {
        assert n[i] == Lower(name[i]);
      }
    }
    forall c: char ensures Lower(Lower(c)) == Lower(c) {
    }
  }

  /** "gzip" and "hello" select the passthrough: neither ends in "gz". */
  lemma OtherNamesSelectNull(defaultCodec: string)
    ensures GetInstance(defaultCodec, Some("gzip")) == NullCodec
    ensures GetInstance(defaultCodec, Some("hello")) == NullCodec
  {
    assert Lower("gzip"[2]) != Lower("gz"[0]);
    assert Lower("hello"[3]) != Lower("gz"[0]);
  }
}

=== FILE: file_names.dfy ===
/**
 The file-name helpers the roller relies on: File.getName, File.isHidden and
 FilenameUtils.getExtension, for '/'-separated paths.
 */
module FileNames {
  import opened Prelude

  /** Position of the last `c` in `s`, or -1 if there is none. */
  function LastIndex(s: string, c: char): (r: int)
    ensures -1 <= r < |s|
    ensures r >= 0 ==> s[r] == c
    ensures forall j :: r < j < |s| ==> s[j] != c
    decreases |s|
  {
    if s == [] then -1
    else if s[|s| - 1] == c then |s| - 1
    else
      var r := LastIndex(s[..|s| - 1], c);
      assert forall j :: r < j < |s| - 1 ==> s[..|s| - 1][j] == s[j];
      r
  }

  /** The text after the last `c` in `s`; all of `s` if `c` does not occur. */
  function AfterLast(s: string, c: char): (r: string)
    ensures c !in r
    ensures c !in s ==> r == s
    ensures |r| <= |s| && r == s[|s| - |r|..]
  {
    var k := LastIndex(s, c);
    var r := s[k + 1..];
    assert c !in r by {
      forall j | 0 <= j < |r| ensures r[j] != c {
        assert r[j] == s[k + 1 + j];
      }
    }
    assert c !in s ==> k == -1;
    r
  }

  /**
   File.getName: the last path component, a tail of the path holding no
   separator; a path without separator is its own name.
   */
  function Name(p: Path): (n: string)
    ensures '/' !in n && |n| <= |p| && n == p[|p| - |n|..]
    ensures |n| == |p| || p[|p| - |n| - 1] == '/'
    ensures '/' !in p ==> n == p
  {
    AfterLast(p, '/')
  }

  /**
   File.isHidden on a Unix file system: the name starts with a dot. A path
   without separator is hidden exactly when it starts with one.
   */
  predicate Hidden(p: Path): (h: bool)
    ensures h ==> '.' in p
    ensures '/' !in p ==> (h <==> |p| > 0 && p[0] == '.')
  {
    var n := Name(p);
    assert |n| > 0 ==> n[0] == p[|p| - |n|];
    |n| > 0 && n[0] == '.'
  }

  /**
   The last component of `p` starts with a dot: some dot begins the path or
   follows a separator, and no separator comes after it.
   */
  ghost predicate DottedLastComponent(p: Path) {
    exists k :: 0 <= k < |p| && p[k] == '.' && (k == 0 || p[k - 1] == '/') && '/' !in p[k..]
  }

  /** A path is hidden exactly when its last component starts with a dot. */
  lemma HiddenIffDotted(p: Path)
    ensures Hidden(p) <==> DottedLastComponent(p)
  {
    var n := Name(p);
    var m := |p| - |n|;
    if Hidden(p) {
      assert p[m] == n[0] && p[m..] == n;
      assert 0 <= m < |p| && p[m] == '.' && (m == 0 || p[m - 1] == '/') && '/' !in p[m..];
    }
    if DottedLastComponent(p) {
      var k :| 0 <= k < |p| && p[k] == '.' && (k == 0 || p[k - 1] == '/') && '/' !in p[k..];
      assert k == m;
      assert n[0] == p[k];
    }
  }

  /** FilenameUtils.getExtension of a file name: the text after its last dot, or empty if it has none. */
  function Extension(name: string): (e: string)
    ensures '.' !in e
    ensures '.' !in name ==> e == []
    ensures '.' in name ==> |e| < |name| && name[|name| - |e| - 1] == '.' && e == name[|name| - |e|..]
  {
    if '.' in name then AfterLast(name, '.') else []
  }

  /** The path of the artifact GzipCompressor writes next to `p`. */
  function GzPath(p: Path): Path {
    p + ".gz"
  }

  lemma {:induction false} LastIndexAppend(s: string, c: char, tail: string)
    requires c !in tail
    ensures LastIndex(s + tail, c) == LastIndex(s, c)
    decreases |tail|
  {
    if tail != [] {
      var t := tail[..|tail| - 1];
      assert (s + tail)[..|s + tail| - 1] == s + t;
      assert (s + tail)[|s + tail| - 1] == tail[|tail| - 1];
      assert tail[|tail| - 1] in tail;
      assert c !in t by {
        assert forall j :: 0 <= j < |t| ==> t[j] == tail[j];
      }
      LastIndexAppend(s, c, t);
    } else {
      assert s + tail == s;
    }
  }

  lemma AfterLastAppend(s: string, c: char, tail: string)
    requires c !in tail
    ensures AfterLast(s + tail, c) == AfterLast(s, c) + tail
  {
    LastIndexAppend(s, c, tail);
    var k := LastIndex(s, c);
    assert (s + tail)[k + 1..] == s[k + 1..] + tail;
  }

  /** The artifact's name is the original's name plus ".gz". */
  lemma GzName(p: Path)
    ensures Name(GzPath(p)) == Name(p) + ".gz"
  {
    AfterLastAppend(p, '/', ".gz");
  }

  /**
   A compressed artifact has extension "gz", so a later roll uploads it as it
   is instead of compressing it again.
   */
  lemma GzArtifactIsNotRecompressed(p: Path)
    ensures Extension(Name(GzPath(p))) == "gz"
  {
    GzName(p);
    GzSuffixExtension(Name(p));
  }

  /** Any name followed by ".gz" has extension "gz". */
  lemma GzSuffixExtension(name: string)
    ensures Extension(name + ".gz") == "gz"
  {
    var n := name + ".gz";
    var dotted := name + ".";
    assert n == dotted + "gz";
    assert '.' in n by {
      assert n[|n| - 3] == '.';
    }
    assert AfterLast(dotted, '.') == [] by {
      assert LastIndex(dotted, '.') == |dotted| - 1;
    }
    AfterLastAppend(dotted, '.', "gz");
  }

  /** The artifact of a file with a non-empty name is hidden exactly when the file is. */
  lemma GzHiddenIffHidden(p: Path)
    requires Name(p) != []
    ensures Hidden(GzPath(p)) <==> Hidden(p)
  {
    GzName(p);
  }
}

=== FILE: ingestion.dfy ===
/**
 One call of S3Sink.process: the backpressure guard, the bounded batch loop
 that appends each event to its bucket file through the handle cache, the
 batch counters, and the commit or rollback with the status returned to the
 channel's runner.

 The channel is a sequence of events; a transaction takes events from its
 front, a commit removes them and a rollback leaves the channel as it was.
 The step is atomic: the transaction flag is raised at its start and lowered
 at its end. Where an exception happens is an input (`Fault`), and so is
 which evictions fail to close their handle.
 */
module Ingestion {
  import opened Prelude
  import opened WriterCache
  import opened LocalStore
  import opened BatchIdentifier
  import opened SinkState

  datatype Status = Ready | Backoff | Thrown

  /**
   Where the transaction fails, by index of the event being handled: an I/O
   error while writing that event's record, or any other throwable before it
   is taken (from the channel, say).
   */
  datatype Fault = NoFault | IoFault(at: nat) | OtherFault(at: nat)

  datatype Outcome = Outcome(sink: Sink, channel: seq<Event>, status: Status)

  /** The platform file separator, taken to be the Unix one. */
  const Separator: string := "/"

  /** The local file an event goes to, under the identifier current when it is handled. */
  function LocalPath(cfg: Config, identifier: string, e: Event): (p: Path)
    ensures |cfg.localBaseDirectory| <= |p| && p[..|cfg.localBaseDirectory|] == cfg.localBaseDirectory
    ensures var suffix := cfg.escape(cfg.suffix, e.headers);
            |suffix| <= |p| && p[|p| - |suffix|..] == suffix
  {
    cfg.localBaseDirectory + cfg.escape(cfg.filePath, e.headers) + Separator
      + cfg.escape(cfg.fileName, e.headers) + "-" + identifier + cfg.escape(cfg.suffix, e.headers)
  }

  /**
   The identifier is part of the path: the same event under two different
   identifiers goes to two different files, so the same event handled after
   a rotation does not land in the file it went to before. Two different
   events may still meet in one path, as escaped templates can absorb the
   identifier's digits.
   */
  lemma PathSeparatesBatches(cfg: Config, id1: string, id2: string, e: Event)
    ensures LocalPath(cfg, id1, e) == LocalPath(cfg, id2, e) <==> id1 == id2
  {
    var front := cfg.localBaseDirectory + cfg.escape(cfg.filePath, e.headers) + Separator
      + cfg.escape(cfg.fileName, e.headers) + "-";
    var back := cfg.escape(cfg.suffix, e.headers);
    assert LocalPath(cfg, id1, e) == front + id1 + back;
    assert LocalPath(cfg, id2, e) == front + id2 + back;
    if front + id1 + back == front + id2 + back {
      assert |id1| == |id2|;
      assert id1 == (front + id1 + back)[|front|..|front| + |id1|];
      assert id2 == (front + id2 + back)[|front|..|front| + |id2|];
    }
  }

  /** What one event appends: its body, then a newline. */
  function Record(e: Event): Bytes {
    e.body + [NewLine]
  }

  /**
   Looks the event's path up in the cache; on a miss creates the file if it
   does not exist, opens an append-mode handle with an empty buffer and puts
   it in the cache, closing whatever the put evicts.
   */
  function Admit(s: Sink, p: Path, closeOk: bool): (r: Sink)
    requires Valid(s.cache)
    ensures Valid(r.cache) && r.cache.maxOpen == s.cache.maxOpen
    ensures r == s.(cache := r.cache, files := r.files)
  {
    var got := Get(s.cache, p);
    if got.1.Some? then
      s.(cache := got.0)
    else
      var created := Create(s.files, p);
      var put := Put(got.0, p, Handle([]));
      var files := if put.evicted.Some? then Close(created, put.evicted.value.0, put.evicted.value.1, closeOk) else created;
      s.(cache := put.cache, files := files)
  }

  /**
   Writes through the handle of `p`. When the handle was closed by its own
   insertion (a cache of size zero), the bytes go into a buffer that is never
   flushed.
   */
  function WriteRecord(s: Sink, p: Path, bytes: Bytes): (r: Sink)
    requires Valid(s.cache)
    ensures Valid(r.cache) && r.cache.maxOpen == s.cache.maxOpen && r.cache.handles.Keys == s.cache.handles.Keys
    ensures r.cache.order == s.cache.order
    ensures p in s.cache.handles ==> r.cache.handles == s.cache.handles[p := Handle(s.cache.handles[p].buffer + bytes)]
    ensures p !in s.cache.handles ==> r == s
    ensures r == s.(cache := r.cache)
  {
    if p in s.cache.handles then
      s.(cache := SetHandle(s.cache, p, Handle(s.cache.handles[p].buffer + bytes)))
    else s
  }

  /** The batch counter bumped after the event at position `i` of the batch. */
  function Tally(c: Counters, i: nat, batchSize: nat): (r: Counters)
    ensures r.batchEmpty >= c.batchEmpty && r.batchUnderflow >= c.batchUnderflow && r.batchComplete >= c.batchComplete
    ensures r.batchEmpty + r.batchUnderflow + r.batchComplete == c.batchEmpty + c.batchUnderflow + c.batchComplete + 1
    ensures r.batchEmpty == c.batchEmpty + 1 <==> i == 0
    ensures r.batchComplete == c.batchComplete + 1 <==> i != 0 && i == batchSize
    ensures r.drainSuccess == c.drainSuccess && r.writeFail == c.writeFail && r.writeOrChannelFail == c.writeOrChannelFail
  {
    if i == 0 then c.(batchEmpty := c.batchEmpty + 1)
    else if i == batchSize then c.(batchComplete := c.batchComplete + 1)
    else c.(batchUnderflow := c.batchUnderflow + 1)
  }

  /** The body of the batch loop for the event at position `i`. */
  function ApplyEvent(cfg: Config, s: Sink, e: Event, i: nat, closeFails: set<nat>): (r: Sink)
    requires Valid(s.cache)
    ensures Valid(r.cache) && r.cache.maxOpen == s.cache.maxOpen
    ensures r == s.(cache := r.cache, files := r.files, counters := r.counters)
  {
    var admitted := Admit(s, LocalPath(cfg, s.identifier.value, e), i !in closeFails);
    var written := WriteRecord(admitted, LocalPath(cfg, s.identifier.value, e), Record(e));
    written.(counters := Tally(written.counters, i, cfg.batchSize))
  }

  /** The batch loop over `events`, the events it took, in order. */
  function Ingest(cfg: Config, s: Sink, events: seq<Event>, closeFails: set<nat>): (r: Sink)
    requires Valid(s.cache)
    ensures Valid(r.cache) && r.cache.maxOpen == s.cache.maxOpen
    ensures r == s.(cache := r.cache, files := r.files, counters := r.counters)
    decreases |events|
  {
    if events == [] then s
    else ApplyEvent(cfg, Ingest(cfg, s, events[..|events| - 1], closeFails), events[|events| - 1], |events| - 1, closeFails)
  }

  lemma IngestOneMore(cfg: Config, s: Sink, events: seq<Event>, n: nat, closeFails: set<nat>)
    requires Valid(s.cache) && n < |events|
    ensures Ingest(cfg, s, events[..n + 1], closeFails)
            == ApplyEvent(cfg, Ingest(cfg, s, events[..n], closeFails), events[n], n, closeFails)
  {
    assert events[..n + 1][..n] == events[..n];
  }

  /**
   S3Sink.process. While a roll is in flight it backs off at once and changes
   nothing. Otherwise it takes at most `batchSize` events, stopping when the
   channel is empty; commits and reports READY if it took any, BACKOFF if
   none; on an I/O error rolls back and reports BACKOFF, on any other
   throwable rolls back and rethrows. Bytes already handed to handles stay
   there in every case, and, when the transaction's begin and close succeed,
   the transaction flag is down at every exit.
   */
  function Process(cfg: Config, s: Sink, channel: seq<Event>, closeFails: set<nat>, fault: Fault): (r: Outcome)
    requires Valid(s.cache)
    ensures s.uploadFlag ==> r == Outcome(s, channel, Backoff)
    ensures !s.uploadFlag ==> !r.sink.transactionRunning
    ensures r.sink.uploadFlag == s.uploadFlag && r.sink.identifier == s.identifier
    ensures r.sink.remote == s.remote && r.sink.cycle == s.cycle
    ensures r.status == Ready <==>
              !s.uploadFlag && Min(cfg.batchSize, |channel|) >= 1
              && !(fault.IoFault? && fault.at < Min(cfg.batchSize, |channel|))
              && !(fault.OtherFault? && fault.at < Min(cfg.batchSize, |channel|))
    ensures r.status == Ready ==> r.channel == channel[Min(cfg.batchSize, |channel|)..]
    ensures r.status != Ready ==> r.channel == channel
    ensures r.status == Thrown <==> !s.uploadFlag && fault.OtherFault? && fault.at < Min(cfg.batchSize, |channel|)
  {
    if s.uploadFlag then Outcome(s, channel, Backoff)
    else
      var running := s.(transactionRunning := true);
      var n := Min(cfg.batchSize, |channel|);
      if fault.IoFault? && fault.at < n then
        var before := Ingest(cfg, running, channel[..fault.at], closeFails);
        var failed := Admit(before, LocalPath(cfg, before.identifier.value, channel[fault.at]), fault.at !in closeFails);
        var counters := failed.counters.(writeFail := failed.counters.writeFail + 1);
        Outcome(failed.(counters := counters, transactionRunning := false), channel, Backoff)
      else if fault.OtherFault? && fault.at < n then
        var before := Ingest(cfg, running, channel[..fault.at], closeFails);
        var counters := before.counters.(writeOrChannelFail := before.counters.writeOrChannelFail + 1);
        Outcome(before.(counters := counters, transactionRunning := false), channel, Thrown)
      else
        var after := Ingest(cfg, running, channel[..n], closeFails);
        if n == 0 then
          Outcome(after.(transactionRunning := false), channel, Backoff)
        else
          var counters := after.counters.(drainSuccess := after.counters.drainSuccess + n);
          Outcome(after.(counters := counters, transactionRunning := false), channel[n..], Ready)
  }

  /** Process when the event at `i` meets a throwable other than an I/O error. */
  lemma ProcessThrowsAt(cfg: Config, s: Sink, channel: seq<Event>, closeFails: set<nat>, i: nat)
    requires Valid(s.cache) && !s.uploadFlag && i < Min(cfg.batchSize, |channel|)
    ensures var before := Ingest(cfg, s.(transactionRunning := true), channel[..i], closeFails);
            Process(cfg, s, channel, closeFails, OtherFault(i))
            == Outcome(before.(counters := before.counters.(writeOrChannelFail := before.counters.writeOrChannelFail + 1),
                               transactionRunning := false), channel, Thrown)
  {
  }

  /** A step leaves the cache well formed, with its bound unchanged. */
  lemma ProcessKeepsCache(cfg: Config, s: Sink, channel: seq<Event>, closeFails: set<nat>, fault: Fault)
    requires Valid(s.cache)
    ensures var r := Process(cfg, s, channel, closeFails, fault).sink;
            Valid(r.cache) && r.cache.maxOpen == s.cache.maxOpen
  {
  }

  /** Process when writing the event at `i` fails with an I/O error. */
  lemma ProcessFailsAt(cfg: Config, s: Sink, channel: seq<Event>, closeFails: set<nat>, i: nat)
    requires Valid(s.cache) && !s.uploadFlag && i < Min(cfg.batchSize, |channel|)
    ensures var before := Ingest(cfg, s.(transactionRunning := true), channel[..i], closeFails);
            var failed := Admit(before, LocalPath(cfg, before.identifier.value, channel[i]), i !in closeFails);
            Process(cfg, s, channel, closeFails, IoFault(i))
            == Outcome(failed.(counters := failed.counters.(writeFail := failed.counters.writeFail + 1),
                               transactionRunning := false), channel, Backoff)
  {
  }

  /**
   The batch loop as S3Sink.process runs it, event by event, inside the
   transaction. It stops early only on a fault, and then returns the outcome
   of the whole step; otherwise it returns the state after the events taken,
   which its loop invariant ties to `Ingest`.
   */
  method TakeBatch(cfg: Config, s: Sink, channel: seq<Event>, closeFails: set<nat>, fault: Fault)
    returns (current: Sink, taken: nat, failed: Option<Outcome>)
    requires Valid(s.cache) && !s.uploadFlag
    ensures failed.Some? ==> failed.value == Process(cfg, s, channel, closeFails, fault) && failed.value.status != Ready
    ensures failed.None? ==> taken == Min(cfg.batchSize, |channel|)
    ensures failed.None? ==> !(fault.IoFault? && fault.at < taken) && !(fault.OtherFault? && fault.at < taken)
    ensures failed.None? ==> current == Ingest(cfg, s.(transactionRunning := true), channel[..taken], closeFails)
    ensures failed.None? ==> current.counters.batchComplete == s.counters.batchComplete
  {
    var running := s.(transactionRunning := true);
    current := running;
    taken := 0;
    assert channel[..0] == [];
    assert current == Ingest(cfg, running, channel[..taken], closeFails);
    while taken < cfg.batchSize
      invariant taken <= cfg.batchSize && taken <= |channel|
      invariant current == Ingest(cfg, running, channel[..taken], closeFails)
      invariant current.counters.batchComplete == s.counters.batchComplete
      invariant fault.IoFault? || fault.OtherFault? ==> fault.at >= taken
      decreases cfg.batchSize - taken
    {
      if taken == |channel| {
        break;
      }
      if fault == OtherFault(taken) {
        var counters := current.counters.(writeOrChannelFail := current.counters.writeOrChannelFail + 1);
        ProcessThrowsAt(cfg, s, channel, closeFails, taken);
        return current, taken, Some(Outcome(current.(counters := counters, transactionRunning := false), channel, Thrown));
      }
      if fault == IoFault(taken) {
        var admitted := Admit(current, LocalPath(cfg, current.identifier.value, channel[taken]), taken !in closeFails);
        var counters := admitted.counters.(writeFail := admitted.counters.writeFail + 1);
        ProcessFailsAt(cfg, s, channel, closeFails, taken);
        return current, taken, Some(Outcome(admitted.(counters := counters, transactionRunning := false), channel, Backoff));
      }
      assert fault.IoFault? || fault.OtherFault? ==> fault.at > taken;
      var next := TakeOne(cfg, current, channel[taken], taken, closeFails);
      IngestOneMore(cfg, running, channel, taken, closeFails);
      current := next;
      taken := taken + 1;
      assert current == Ingest(cfg, running, channel[..taken], closeFails);
    }
    failed := None;
  }

  /**
   One pass of the batch loop's body for the event at position `i`: get or
   open its handle, write its record, and bump the batch counter for its
   position. The loop guard keeps `i` below `batchSize`, so the "batch
   complete" branch is dead.
   */
  method TakeOne(cfg: Config, current: Sink, e: Event, i: nat, closeFails: set<nat>) returns (next: Sink)
    requires Valid(current.cache) && i < cfg.batchSize
    ensures next == ApplyEvent(cfg, current, e, i, closeFails)
    ensures next.counters.batchComplete == current.counters.batchComplete
  {
    var p := LocalPath(cfg, current.identifier.value, e);
    var admitted := Admit(current, p, i !in closeFails);
    var written := WriteRecord(admitted, p, Record(e));
    var counters := written.counters;
    if i == 0 {
      counters := counters.(batchEmpty := counters.batchEmpty + 1);
    } else if i == cfg.batchSize {
      assert false;
    } else {
      counters := counters.(batchUnderflow := counters.batchUnderflow + 1);
    }
    next := written.(counters := counters);
  }

  /** S3Sink.process as a method: the backpressure guard, the batch loop, then commit or rollback. */
  method RunProcess(cfg: Config, s: Sink, channel: seq<Event>, closeFails: set<nat>, fault: Fault)
    returns (r: Outcome)
    requires Valid(s.cache)
    ensures r == Process(cfg, s, channel, closeFails, fault)
    ensures r.status == Ready ==> r.sink.counters.batchComplete == s.counters.batchComplete
  {
    if s.uploadFlag {
      return Outcome(s, channel, Backoff);
    }
    var current, taken, failed := TakeBatch(cfg, s, channel, closeFails, fault);
    if failed.Some? {
      return failed.value;
    }
    if taken < 1 {
      r := Outcome(current.(transactionRunning := false), channel, Backoff);
    } else {
      var counters := current.counters.(drainSuccess := current.counters.drainSuccess + taken);
      r := Outcome(current.(counters := counters, transactionRunning := false), channel[taken..], Ready);
    }
  }

  /* ---------- What a step does to the bytes of each file ---------- */

  /**
   The records of `events` that go to `p` under `identifier`, in the order the
   events were taken.
   */
  function Routed(cfg: Config, identifier: string, events: seq<Event>, p: Path): Bytes
    decreases |events|
  {
    if events == [] then []
    else
      var e := events[|events| - 1];
      Routed(cfg, identifier, events[..|events| - 1], p) + (if LocalPath(cfg, identifier, e) == p then Record(e) else [])
  }

  /**
   With room for at least one handle, admitting a file neither loses nor adds
   bytes: an evicted handle is flushed by its (successful) close, and the
   file ends up with an open handle.
   */
  lemma AdmitKeepsContent(s: Sink, p: Path, q: Path)
    requires Valid(s.cache) && s.cache.maxOpen >= 1
    ensures p in Admit(s, p, true).cache.handles
    ensures Content(Admit(s, p, true), q) == Content(s, q)
  {
    if p !in s.cache.handles {
      InsertKeepsContent(s.files, s.cache, p, q);
    }
  }

  /** The miss path of `Admit`, on the files and the cache alone. */
  lemma InsertKeepsContent(fs: Files, c: Lru<Path, Handle>, p: Path, q: Path)
    requires Valid(c) && c.maxOpen >= 1 && p !in c.handles
    ensures var put := Put(c, p, Handle([]));
            var created := Create(fs, p);
            var files := if put.evicted.Some? then Close(created, put.evicted.value.0, put.evicted.value.1, true) else created;
            && p in put.cache.handles
            && Read(files, q) + Buffered(put.cache, q) == Read(fs, q) + Buffered(c, q)
  {
    if Size(c) == c.maxOpen {
      EvictKeepsContent(fs, c, p, q);
    } else {
      var put := Put(c, p, Handle([]));
      assert put.evicted == None;
      assert Read(Create(fs, p), q) == Read(fs, q);
    }
  }

  /** A full cache: the eldest handle is evicted and closed, which moves its buffer into its file. */
  lemma EvictKeepsContent(fs: Files, c: Lru<Path, Handle>, p: Path, q: Path)
    requires Valid(c) && c.maxOpen >= 1 && p !in c.handles && Size(c) == c.maxOpen
    ensures var put := Put(c, p, Handle([]));
            && p in put.cache.handles
            && put.evicted == Some((c.order[0], c.handles[c.order[0]]))
            && var files := Close(Create(fs, p), c.order[0], c.handles[c.order[0]], true);
               Read(files, q) + Buffered(put.cache, q) == Read(fs, q) + Buffered(c, q)
  {
    var put := Put(c, p, Handle([]));
    var created := Create(fs, p);
    var eldest := c.order[0];
    EvictShape(c, p);
    var files := Close(created, eldest, c.handles[eldest], true);
    assert Read(created, q) == Read(fs, q);
    if q == eldest {
      assert Read(files, q) == Read(fs, q) + c.handles[q].buffer;
      assert Buffered(put.cache, q) == [] && Buffered(c, q) == c.handles[q].buffer;
    } else if q == p {
      assert put.cache.handles[p] == Handle([]);
      assert Read(files, q) == Read(fs, q);
      assert Buffered(put.cache, q) == [] && Buffered(c, q) == [];
    } else {
      assert Read(files, q) == Read(fs, q);
      assert Buffered(put.cache, q) == Buffered(c, q);
    }
  }

  /** Inserting into a full cache keeps the new key and evicts the eldest entry with its handle. */
  lemma EvictShape(c: Lru<Path, Handle>, p: Path)
    requires Valid(c) && c.maxOpen >= 1 && p !in c.handles && Size(c) == c.maxOpen
    ensures c.order[0] in c.handles && c.order[0] != p
    ensures var put := Put(c, p, Handle([]));
            && p in put.cache.handles && c.order[0] !in put.cache.handles
            && put.evicted == Some((c.order[0], c.handles[c.order[0]]))
  {
    assert c.order[0] in c.order;
  }

  /**
   An eviction whose close fails still removes the entry: the victim leaves
   the cache, its file keeps only what it held, and its buffered bytes are lost.
   */
  lemma FailedCloseLosesBuffer(s: Sink, p: Path)
    requires Valid(s.cache) && s.cache.maxOpen >= 1 && p !in s.cache.handles && Size(s.cache) == s.cache.maxOpen
    ensures var victim := s.cache.order[0];
            var r := Admit(s, p, false);
            && victim !in r.cache.handles
            && Read(r.files, victim) == Read(s.files, victim)
            && Content(r, victim) == Read(s.files, victim)
  {
    var victim := s.cache.order[0];
    assert victim in s.cache.handles;
    var put := Put(s.cache, p, Handle([]));
    assert put.evicted == Some((victim, s.cache.handles[victim]));
    assert Read(Create(s.files, p), victim) == Read(s.files, victim);
  }

  /** Writing through an open handle appends to what its file will hold, and to nothing else. */
  lemma WriteAppends(s: Sink, p: Path, bytes: Bytes, q: Path)
    requires Valid(s.cache) && p in s.cache.handles
    ensures Content(WriteRecord(s, p, bytes), q) == Content(s, q) + (if p == q then bytes else [])
  {
    if p == q {
      assert Buffered(WriteRecord(s, p, bytes).cache, q) == Buffered(s.cache, q) + bytes;
    }
  }

  /** With room for one handle and a successful close, an event appends its record to its file and nothing else. */
  lemma EventContent(cfg: Config, s: Sink, e: Event, i: nat, closeFails: set<nat>, q: Path)
    requires Valid(s.cache) && s.cache.maxOpen >= 1 && i !in closeFails
    ensures Content(ApplyEvent(cfg, s, e, i, closeFails), q)
            == Content(s, q) + (if LocalPath(cfg, s.identifier.value, e) == q then Record(e) else [])
  {
    var p := LocalPath(cfg, s.identifier.value, e);
    var admitted := Admit(s, p, true);
    var written := WriteRecord(admitted, p, Record(e));
    calc {
      Content(ApplyEvent(cfg, s, e, i, closeFails), q);
      { assert ApplyEvent(cfg, s, e, i, closeFails).files == written.files;
        assert ApplyEvent(cfg, s, e, i, closeFails).cache == written.cache; }
      Content(written, q);
      { AdmitKeepsContent(s, p, q);
        WriteAppends(admitted, p, Record(e), q); }
      Content(s, q) + (if p == q then Record(e) else []);
    }
  }

  lemma AppendAssoc(a: Bytes, b: Bytes, c: Bytes)
    ensures (a + b) + c == a + (b + c)
  {
  }

  /**
   No record is lost or duplicated: after the batch loop every file, counting
   the bytes still buffered in its handle, holds what it held before followed
   by the records of the events routed to it, in order. This needs room for
   at least one open handle and no failing close.
   */
  lemma {:induction false} IngestContent(cfg: Config, s: Sink, events: seq<Event>, closeFails: set<nat>, q: Path)
    requires Valid(s.cache) && s.cache.maxOpen >= 1
    requires forall i :: 0 <= i < |events| ==> i !in closeFails
    ensures Content(Ingest(cfg, s, events, closeFails), q) == Content(s, q) + Routed(cfg, s.identifier.value, events, q)
    decreases |events|
  {
    if events != [] {
      var front := events[..|events| - 1];
      var e := events[|events| - 1];
      var id := s.identifier.value;
      var before := Ingest(cfg, s, front, closeFails);
      var added := if LocalPath(cfg, id, e) == q then Record(e) else [];
      calc {
        Content(Ingest(cfg, s, events, closeFails), q);
        Content(ApplyEvent(cfg, before, e, |events| - 1, closeFails), q);
        { EventContent(cfg, before, e, |events| - 1, closeFails, q);
          assert before.identifier == s.identifier; }
        Content(before, q) + added;
        { IngestContent(cfg, s, front, closeFails, q); }
        (Content(s, q) + Routed(cfg, id, front, q)) + added;
        { AppendAssoc(Content(s, q), Routed(cfg, id, front, q), added); }
        Content(s, q) + (Routed(cfg, id, front, q) + added);
        Content(s, q) + Routed(cfg, id, events, q);
      }
    }
  }

  /**
   With a cache of size zero a record vanishes: the new handle is evicted by
   its own insertion and closed empty, and the record is written to the
   closed stream, so no file gains a byte.
   */
  lemma ZeroCapacityLosesRecord(cfg: Config, s: Sink, e: Event, i: nat, closeFails: set<nat>, q: Path)
    requires Valid(s.cache) && s.cache.maxOpen == 0
    ensures Content(ApplyEvent(cfg, s, e, i, closeFails), q) == Content(s, q)
  {
    var p := LocalPath(cfg, s.identifier.value, e);
    assert s.cache.order == [];
    assert p !in s.cache.handles;
    var put := Put(s.cache, p, Handle([]));
    assert put.evicted == Some((p, Handle([])));
    assert put.cache.handles == map[];
  }

  /**
   The counters the batch loop moves when it takes no more than `batchSize`
   events: "batch empty" once for the first event, "batch underflow" once for
   each later one, and nothing else.
   */
  lemma {:induction false} IngestCounters(cfg: Config, s: Sink, events: seq<Event>, closeFails: set<nat>)
    requires Valid(s.cache) && |events| <= cfg.batchSize
    ensures var c := Ingest(cfg, s, events, closeFails).counters;
            && c.batchEmpty == s.counters.batchEmpty + (if events == [] then 0 else 1)
            && c.batchUnderflow == s.counters.batchUnderflow + (if events == [] then 0 else |events| - 1)
            && c.batchComplete == s.counters.batchComplete
            && c.drainSuccess == s.counters.drainSuccess
            && c.writeFail == s.counters.writeFail
            && c.writeOrChannelFail == s.counters.writeOrChannelFail
    decreases |events|
  {
    if events != [] {
      IngestCounters(cfg, s, events[..|events| - 1], closeFails);
    }
  }

  /* ---------- Files and the invariant ---------- */

  /** Admitting a file creates it if needed and never deletes one. */
  lemma AdmitKeepsFiles(s: Sink, p: Path, closeOk: bool)
    requires Valid(s.cache) && HandlesOnFiles(s)
    ensures HandlesOnFiles(Admit(s, p, closeOk)) && p in Admit(s, p, closeOk).files
    ensures s.files.Keys <= Admit(s, p, closeOk).files.Keys
  {
    if p !in s.cache.handles {
      var put := Put(s.cache, p, Handle([]));
      assert forall q :: q in put.cache.handles ==> q in s.cache.handles || q == p;
    }
  }

  lemma EventKeepsFiles(cfg: Config, s: Sink, e: Event, i: nat, closeFails: set<nat>)
    requires Valid(s.cache) && HandlesOnFiles(s)
    ensures HandlesOnFiles(ApplyEvent(cfg, s, e, i, closeFails))
    ensures LocalPath(cfg, s.identifier.value, e) in ApplyEvent(cfg, s, e, i, closeFails).files
    ensures s.files.Keys <= ApplyEvent(cfg, s, e, i, closeFails).files.Keys
  {
    AdmitKeepsFiles(s, LocalPath(cfg, s.identifier.value, e), i !in closeFails);
  }

  /** The batch loop deletes no file and opens handles only on files that exist. */
  lemma {:induction false} IngestKeepsFiles(cfg: Config, s: Sink, events: seq<Event>, closeFails: set<nat>)
    requires Valid(s.cache) && HandlesOnFiles(s)
    ensures HandlesOnFiles(Ingest(cfg, s, events, closeFails))
    ensures s.files.Keys <= Ingest(cfg, s, events, closeFails).files.Keys
    decreases |events|
  {
    if events != [] {
      var front := events[..|events| - 1];
      IngestKeepsFiles(cfg, s, front, closeFails);
      EventKeepsFiles(cfg, Ingest(cfg, s, front, closeFails), events[|events| - 1], |events| - 1, closeFails);
    }
  }

  /** Process when no fault happens within the events it takes. */
  lemma ProcessCompletes(cfg: Config, s: Sink, channel: seq<Event>, closeFails: set<nat>, fault: Fault)
    requires Valid(s.cache) && !s.uploadFlag
    requires !(fault.IoFault? && fault.at < Min(cfg.batchSize, |channel|))
    requires !(fault.OtherFault? && fault.at < Min(cfg.batchSize, |channel|))
    ensures var n := Min(cfg.batchSize, |channel|);
            var after := Ingest(cfg, s.(transactionRunning := true), channel[..n], closeFails);
            var r := Process(cfg, s, channel, closeFails, fault);
            && r.sink == (if n == 0 then after else after.(counters := after.counters.(drainSuccess := after.counters.drainSuccess + n))).(transactionRunning := false)
  {
  }

  /** One step of S3Sink.process keeps the sink invariant. */
  lemma ProcessPreservesInv(cfg: Config, s: Sink, channel: seq<Event>, closeFails: set<nat>, fault: Fault)
    requires Inv(cfg, s)
    ensures Inv(cfg, Process(cfg, s, channel, closeFails, fault).sink)
  {
    if !s.uploadFlag {
      var running := s.(transactionRunning := true);
      var n := Min(cfg.batchSize, |channel|);
      if fault.IoFault? && fault.at < n {
        var before := Ingest(cfg, running, channel[..fault.at], closeFails);
        IngestKeepsFiles(cfg, running, channel[..fault.at], closeFails);
        AdmitKeepsFiles(before, LocalPath(cfg, before.identifier.value, channel[fault.at]), fault.at !in closeFails);
        ProcessFailsAt(cfg, s, channel, closeFails, fault.at);
      } else if fault.OtherFault? && fault.at < n {
        IngestKeepsFiles(cfg, running, channel[..fault.at], closeFails);
        ProcessThrowsAt(cfg, s, channel, closeFails, fault.at);
      } else {
        IngestKeepsFiles(cfg, running, channel[..n], closeFails);
        ProcessCompletes(cfg, s, channel, closeFails, fault);
      }
    }
  }

  /**
   A committed batch: the channel loses exactly the events taken, every file
   gains exactly the records routed to it, in order, and the counters record
   one non-empty batch of `n` drained events.
   */
  lemma ProcessDelivers(cfg: Config, s: Sink, channel: seq<Event>, closeFails: set<nat>, fault: Fault, q: Path)
    requires Valid(s.cache) && s.cache.maxOpen >= 1
    requires forall i :: 0 <= i < |channel| ==> i !in closeFails
    ensures var r := Process(cfg, s, channel, closeFails, fault);
            var n := Min(cfg.batchSize, |channel|);
            r.status == Ready ==>
              && channel[..n] + r.channel == channel
              && Content(r.sink, q) == Content(s, q) + Routed(cfg, s.identifier.value, channel[..n], q)
              && r.sink.counters.drainSuccess == s.counters.drainSuccess + n
              && r.sink.counters.batchEmpty == s.counters.batchEmpty + 1
              && r.sink.counters.batchUnderflow == s.counters.batchUnderflow + n - 1
              && r.sink.counters.batchComplete == s.counters.batchComplete
  {
    var r := Process(cfg, s, channel, closeFails, fault);
    var n := Min(cfg.batchSize, |channel|);
    if r.status == Ready {
      var running := s.(transactionRunning := true);
      var after := Ingest(cfg, running, channel[..n], closeFails);
      ProcessCompletes(cfg, s, channel, closeFails, fault);
      assert r.sink.files == after.files && r.sink.cache == after.cache;
      assert Content(r.sink, q) == Content(after, q);
      IngestContent(cfg, running, channel[..n], closeFails, q);
      CommitCounters(cfg, s, channel, closeFails, fault);
      assert channel[..n] + channel[n..] == channel;
    }
  }

  /** The counters of a committed batch of `n` events: one "batch empty", n-1 "underflow", n drained. */
  lemma CommitCounters(cfg: Config, s: Sink, channel: seq<Event>, closeFails: set<nat>, fault: Fault)
    requires Valid(s.cache)
    ensures var r := Process(cfg, s, channel, closeFails, fault);
            var n := Min(cfg.batchSize, |channel|);
            r.status == Ready ==>
              && r.sink.counters.drainSuccess == s.counters.drainSuccess + n
              && r.sink.counters.batchEmpty == s.counters.batchEmpty + 1
              && r.sink.counters.batchUnderflow == s.counters.batchUnderflow + n - 1
              && r.sink.counters.batchComplete == s.counters.batchComplete
  {
    var r := Process(cfg, s, channel, closeFails, fault);
    var n := Min(cfg.batchSize, |channel|);
    if r.status == Ready {
      ProcessCompletes(cfg, s, channel, closeFails, fault);
      IngestCounters(cfg, s.(transactionRunning := true), channel[..n], closeFails);
    }
  }

  /**
   A failed transaction is rolled back, so the channel keeps every event, yet
   the records of the events handled before the fault stay written: on the
   next delivery they are appended a second time.
   */
  lemma RollbackKeepsWrittenRecords(cfg: Config, s: Sink, channel: seq<Event>, closeFails: set<nat>, fault: Fault, q: Path)
    requires Valid(s.cache) && s.cache.maxOpen >= 1
    requires forall i :: 0 <= i < |channel| ==> i !in closeFails
    requires (fault.IoFault? || fault.OtherFault?) && fault.at < Min(cfg.batchSize, |channel|)
    ensures var r := Process(cfg, s, channel, closeFails, fault);
            !s.uploadFlag ==>
              && r.status != Ready && r.channel == channel
              && Content(r.sink, q) == Content(s, q) + Routed(cfg, s.identifier.value, channel[..fault.at], q)
  {
    if !s.uploadFlag {
      var running := s.(transactionRunning := true);
      var before := Ingest(cfg, running, channel[..fault.at], closeFails);
      IngestContent(cfg, running, channel[..fault.at], closeFails, q);
      assert Content(running, q) == Content(s, q);
      if fault.IoFault? {
        ProcessFailsAt(cfg, s, channel, closeFails, fault.at);
        AdmitKeepsContent(before, LocalPath(cfg, before.identifier.value, channel[fault.at]), q);
      } else {
        ProcessThrowsAt(cfg, s, channel, closeFails, fault.at);
      }
    }
  }

  /* ---------- The transaction's own failures ---------- */

  /**
   A failure of the transaction rather than of an event: getChannel,
   getTransaction or begin throwing before the guarded block is entered, or
   close throwing in the block that always runs last.
   */
  datatype TxFault = BeginFails | CloseFails

  /**
   S3Sink.process as the code orders it. The transaction flag is raised
   before the transaction is begun outside the guarded block, and lowered only
   after close in the final block, so a failing begin or close ends the step
   with a throwable and the flag still raised. A step that backs off for a
   roll in flight never reaches the transaction.
   */
  function StepAsWritten(cfg: Config, s: Sink, channel: seq<Event>, closeFails: set<nat>, fault: Fault, tx: Option<TxFault>): (r: Outcome)
    requires Valid(s.cache)
    ensures s.uploadFlag || tx.None? ==> r == Process(cfg, s, channel, closeFails, fault)
    ensures !s.uploadFlag && tx.Some? ==> r.status == Thrown && r.sink.transactionRunning
    ensures tx == Some(BeginFails) && !s.uploadFlag ==> r.channel == channel && r.sink == s.(transactionRunning := true)
  {
    if s.uploadFlag || tx.None? then Process(cfg, s, channel, closeFails, fault)
    else if tx.value == BeginFails then Outcome(s.(transactionRunning := true), channel, Thrown)
    else
      var o := Process(cfg, s, channel, closeFails, fault);
      Outcome(o.sink.(transactionRunning := true), o.channel, Thrown)
  }

  /**
   A failing begin or close leaves the transaction flag raised, which breaks
   the sink invariant that a roll's wait for the running transaction relies on.
   */
  lemma StuckTransactionFlag(cfg: Config, s: Sink, channel: seq<Event>, closeFails: set<nat>, fault: Fault, tx: TxFault)
    requires Inv(cfg, s) && !s.uploadFlag
    ensures var r := StepAsWritten(cfg, s, channel, closeFails, fault, Some(tx));
            r.status == Thrown && r.sink.transactionRunning && !Inv(cfg, r.sink)
  {
  }

  /**
   Once a roll has raised the upload flag over a stuck transaction flag, a
   step backs off before it reaches the transaction, so it cannot lower the
   flag the roll waits on.
   */
  lemma StuckFlagOutlastsRoll(cfg: Config, s: Sink, channel: seq<Event>, closeFails: set<nat>, fault: Fault, tx: Option<TxFault>)
    requires Valid(s.cache) && s.transactionRunning && s.uploadFlag
    ensures var r := StepAsWritten(cfg, s, channel, closeFails, fault, tx);
            r.status == Backoff && r.sink == s && r.channel == channel
  {
  }

  /**
   S3Sink.process with the flag lowered on every exit: a failing begin leaves
   the sink as it was, and a failing close throws after the outcome of the
   body, with the flag down either way.
   */
  function Step(cfg: Config, s: Sink, channel: seq<Event>, closeFails: set<nat>, fault: Fault, tx: Option<TxFault>): (r: Outcome)
    requires Valid(s.cache)
    ensures s.uploadFlag || tx.None? ==> r == Process(cfg, s, channel, closeFails, fault)
    ensures !s.uploadFlag ==> !r.sink.transactionRunning
    ensures !s.uploadFlag && tx.Some? ==> r.status == Thrown
    ensures tx == Some(BeginFails) && !s.uploadFlag ==> r.channel == channel && r.sink == s.(transactionRunning := false)
    ensures tx == Some(CloseFails) && !s.uploadFlag ==>
              var o := Process(cfg, s, channel, closeFails, fault);
              r.sink == o.sink && r.channel == o.channel
  {
    if s.uploadFlag || tx.None? then Process(cfg, s, channel, closeFails, fault)
    else if tx.value == BeginFails then Outcome(s.(transactionRunning := false), channel, Thrown)
    else
      var o := Process(cfg, s, channel, closeFails, fault);
      Outcome(o.sink, o.channel, Thrown)
  }

  /** With the flag lowered on every exit, every step keeps the sink invariant, whatever fails. */
  lemma StepPreservesInv(cfg: Config, s: Sink, channel: seq<Event>, closeFails: set<nat>, fault: Fault, tx: Option<TxFault>)
    requires Inv(cfg, s)
    ensures Inv(cfg, Step(cfg, s, channel, closeFails, fault, tx).sink)
  {
    ProcessPreservesInv(cfg, s, channel, closeFails, fault);
  }
}

=== FILE: local_store.dfy ===
/**
 The local base directory as a map from absolute path to bytes, and the
 append-mode output handles the sink writes through.

 A handle buffers what is written to it; the bytes reach the file when the
 handle is closed. A close that fails (its flush raises an I/O error) loses
 the buffered bytes.
 */
module LocalStore {
  import opened Prelude
  import opened WriterCache

  type Files = map<Path, Bytes>

  /** An open append-mode output stream and the bytes written to it but not yet flushed. */
  datatype Handle = Handle(buffer: Bytes)

  /** The bytes of a file; a missing file reads as empty. */
  function Read(fs: Files, p: Path): Bytes {
    if p in fs then fs[p] else []
  }

  /** File.createNewFile when the file does not exist yet; an existing file is kept as it is. */
  function Create(fs: Files, p: Path): (r: Files)
    ensures r.Keys == fs.Keys + {p}
    ensures forall q :: Read(r, q) == Read(fs, q)
  {
    if p in fs then fs else fs[p := []]
  }

  /** Appends to a file, creating it if needed; no other file changes. */
  function Append(fs: Files, p: Path, b: Bytes): (r: Files)
    ensures r.Keys == fs.Keys + {p}
    ensures Read(r, p) == Read(fs, p) + b
    ensures forall q :: q != p ==> Read(r, q) == Read(fs, q)
  {
    fs[p := Read(fs, p) + b]
  }

  /** Closes the handle of `p`: on success its buffer is flushed to the end of the file, on failure it is lost. */
  function Close(fs: Files, p: Path, h: Handle, ok: bool): (r: Files)
    ensures r.Keys == if ok then fs.Keys + {p} else fs.Keys
    ensures Read(r, p) == Read(fs, p) + (if ok then h.buffer else [])
    ensures forall q :: q != p ==> Read(r, q) == Read(fs, q)
  {
    if ok then Append(fs, p, h.buffer) else fs
  }

  /** Closes the handles in turn; those of the paths in `fails` fail to close. */
  function CloseEach(fs: Files, closed: seq<(Path, Handle)>, fails: set<Path>): (r: Files)
    ensures r.Keys <= fs.Keys + set i | 0 <= i < |closed| :: closed[i].0
    ensures fs.Keys <= r.Keys
    decreases |closed|
  {
    if closed == [] then fs
    else
      var r := CloseEach(Close(fs, closed[0].0, closed[0].1, closed[0].0 !in fails), closed[1..], fails);
      assert (set i | 0 <= i < |closed[1..]| :: closed[1..][i].0) <= set i | 0 <= i < |closed| :: closed[i].0 by {
        forall i | 0 <= i < |closed[1..]| ensures closed[1..][i].0 in set i | 0 <= i < |closed| :: closed[i].0 {
          assert closed[1..][i] == closed[i + 1];
        }
      }
      assert closed[0].0 in set i | 0 <= i < |closed| :: closed[i].0;
      r
  }

  /** The bytes still buffered for `p` among the handles being closed, unless its close fails. */
  function Flushed(closed: seq<(Path, Handle)>, fails: set<Path>, p: Path): Bytes
    decreases |closed|
  {
    if closed == [] then []
    else if closed[0].0 == p then (if p in fails then [] else closed[0].1.buffer)
    else Flushed(closed[1..], fails, p)
  }

  /**
   Closing handles of distinct paths leaves every file holding its old bytes
   followed by whatever its handle had buffered, unless that close failed.
   */
  lemma {:induction false} CloseEachContents(fs: Files, closed: seq<(Path, Handle)>, fails: set<Path>, p: Path)
    requires Distinct(KeysOf(closed))
    ensures Read(CloseEach(fs, closed, fails), p) == Read(fs, p) + Flushed(closed, fails, p)
    decreases |closed|
  {
    if closed != [] {
      var q := closed[0].0;
      var fs1 := Close(fs, q, closed[0].1, q !in fails);
      assert Distinct(KeysOf(closed[1..])) by {
        assert forall i :: 0 <= i < |closed[1..]| ==> KeysOf(closed[1..])[i] == KeysOf(closed)[i + 1];
      }
      CloseEachContents(fs1, closed[1..], fails, p);
      if q == p {
        assert Flushed(closed[1..], fails, p) == [] by {
          FlushedAbsent(closed[1..], fails, p);
          forall i | 0 <= i < |closed[1..]| ensures closed[1..][i].0 != p {
            assert KeysOf(closed)[i + 1] == closed[1..][i].0;
            assert KeysOf(closed)[0] == p;
          }
        }
      }
    }
  }

  lemma {:induction false} FlushedAbsent(closed: seq<(Path, Handle)>, fails: set<Path>, p: Path)
    requires forall i :: 0 <= i < |closed| ==> closed[i].0 != p
    ensures Flushed(closed, fails, p) == []
    decreases |closed|
  {
    if closed != [] {
      assert forall i :: 0 <= i < |closed[1..]| ==> closed[1..][i] == closed[i + 1];
      FlushedAbsent(closed[1..], fails, p);
    }
  }

  lemma {:induction false} FlushedPresent(closed: seq<(Path, Handle)>, fails: set<Path>, i: nat)
    requires Distinct(KeysOf(closed)) && i < |closed|
    ensures Flushed(closed, fails, closed[i].0) == if closed[i].0 in fails then [] else closed[i].1.buffer
    decreases i
  {
    if i > 0 {
      assert KeysOf(closed)[0] != KeysOf(closed)[i];
      assert Distinct(KeysOf(closed[1..])) by {
        assert forall j :: 0 <= j < |closed[1..]| ==> KeysOf(closed[1..])[j] == KeysOf(closed)[j + 1];
      }
      assert closed[1..][i - 1] == closed[i];
      FlushedPresent(closed[1..], fails, i - 1);
    }
  }

  /**
   Closing every handle of a cache (WriterLinkedHashMap.close) moves each
   handle's buffered bytes to the end of its file, except for handles whose
   close fails, and leaves every other file as it was.
   */
  lemma CloseAllFlushes(fs: Files, c: Lru<Path, Handle>, fails: set<Path>, p: Path)
    requires Valid(c)
    ensures Read(CloseEach(fs, CloseAll(c).0, fails), p)
            == Read(fs, p) + (if p in c.handles && p !in fails then c.handles[p].buffer else [])
  {
    var closed := CloseAll(c).0;
    CloseEachContents(fs, closed, fails, p);
    if p in c.handles {
      assert p in KeysOf(closed);
      var i :| 0 <= i < |closed| && KeysOf(closed)[i] == p;
      FlushedPresent(closed, fails, i);
    } else {
      forall i | 0 <= i < |closed| ensures closed[i].0 != p {
        assert closed[i].0 in c.handles;
      }
      FlushedAbsent(closed, fails, p);
    }
  }

  /** Closing the handles of a cache whose files all exist creates no file and deletes none. */
  lemma CloseAllKeys(fs: Files, c: Lru<Path, Handle>, fails: set<Path>)
    requires Valid(c) && forall q :: q in c.handles ==> q in fs
    ensures CloseEach(fs, CloseAll(c).0, fails).Keys == fs.Keys
  {
    var closed := CloseAll(c).0;
    var named := set i | 0 <= i < |closed| :: closed[i].0;
    assert named <= fs.Keys by {
      forall i | 0 <= i < |closed| ensures closed[i].0 in fs {
        assert closed[i].0 in c.handles;
      }
    }
  }
}

=== FILE: object_key.dfy ===
/**
 The object key an upload uses (AWSS3Writer.upload): the file's absolute
 path with every occurrence of the base directory deleted, which is
 String.replace(base, "") — occurrences found left to right, never
 overlapping.
 */
module ObjectKey {
  import opened Prelude

  /** `t` occurs in `s` starting at position `i`. */
  predicate IsAt(s: string, t: string, i: int) {
    0 <= i && i + |t| <= |s| && s[i..i + |t|] == t
  }

  predicate Occurs(t: string, s: string) {
    exists i | 0 <= i <= |s| :: IsAt(s, t, i)
  }

  /** String.replace(t, "") on `s`; an empty target leaves the string as it is. */
  function Strip(s: string, t: string): (r: string)
    ensures |r| <= |s|
    decreases |s|
  {
    if t == [] || |s| < |t| then s
    else if s[..|t|] == t then Strip(s[|t|..], t)
    else [s[0]] + Strip(s[1..], t)
  }

  /** How many occurrences Strip deletes. */
  function Removed(s: string, t: string): nat
    decreases |s|
  {
    if t == [] || |s| < |t| then 0
    else if s[..|t|] == t then 1 + Removed(s[|t|..], t)
    else Removed(s[1..], t)
  }

  /** The key is the path shortened by one base length per deleted occurrence. */
  lemma {:induction false} StripLength(s: string, t: string)
    ensures |Strip(s, t)| == |s| - Removed(s, t) * |t|
    decreases |s|
  {
    if t != [] && |s| >= |t| {
      if s[..|t|] == t {
        var rest := s[|t|..];
        StripLength(rest, t);
        var k := Removed(rest, t);
        assert Strip(s, t) == Strip(rest, t) && Removed(s, t) == 1 + k;
        assert |rest| == |s| - |t|;
        OneMore(k, |t|);
      } else {
        StripLength(s[1..], t);
        assert |Strip(s, t)| == 1 + |Strip(s[1..], t)| && Removed(s, t) == Removed(s[1..], t);
      }
    }
  }

  /** One more deletion shortens the key by one more base length. */
  lemma OneMore(k: nat, n: nat)
    ensures (1 + k) * n == n + k * n
  {
  }

  /** An occurrence past the first position is an occurrence in the tail. */
  lemma ShiftLeft(s: string, t: string, i: int)
    requires i >= 1 && IsAt(s, t, i)
    ensures IsAt(s[1..], t, i - 1)
  {
    assert s[1..][i - 1..i - 1 + |t|] == s[i..i + |t|];
  }

  /** An occurrence in the tail is an occurrence one position further on. */
  lemma ShiftRight(s: string, t: string, i: int)
    requires |s| >= 1 && IsAt(s[1..], t, i)
    ensures IsAt(s, t, i + 1)
  {
    assert s[1..][i..i + |t|] == s[i + 1..i + 1 + |t|];
  }

  /** A path in which the base does not occur is its own key. */
  lemma {:induction false} KeyOfForeignPath(base: string, path: string)
    requires !Occurs(base, path)
    ensures Strip(path, base) == path
    decreases |path|
  {
    if base != [] && |path| >= |base| {
      assert !IsAt(path, base, 0);
      assert !Occurs(base, path[1..]) by {
        if Occurs(base, path[1..]) {
          var i :| 0 <= i <= |path[1..]| && IsAt(path[1..], base, i);
          ShiftRight(path, base, i);
          assert false;
        }
      }
      KeyOfForeignPath(base, path[1..]);
      assert path == [path[0]] + path[1..];
    }
  }

  /** A path in which the base occurs gets a strictly shorter key. */
  lemma {:induction false} OccurrenceShortens(base: string, path: string)
    requires base != [] && Occurs(base, path)
    ensures |Strip(path, base)| < |path|
    decreases |path|
  {
    var i :| 0 <= i <= |path| && IsAt(path, base, i);
    if path[..|base|] != base {
      assert i != 0;
      ShiftLeft(path, base, i);
      OccurrenceShortens(base, path[1..]);
    }
  }

  /** The path comes back unchanged exactly when the base does not occur in it (or is empty). */
  lemma StripIdentity(s: string, t: string)
    ensures Strip(s, t) == s <==> t == [] || !Occurs(t, s)
  {
    if t != [] && Occurs(t, s) {
      OccurrenceShortens(t, s);
    } else if t != [] {
      KeyOfForeignPath(t, s);
    }
  }

  /**
   A path made of the base followed by `rest`, where the base does not occur
   inside `rest`, has `rest` as its key: base ++ key gives the path back.
   */
  lemma KeyOfBasePath(base: string, rest: string)
    requires base != [] && !Occurs(base, rest)
    ensures Strip(base + rest, base) == rest
    ensures base + Strip(base + rest, base) == base + rest
  {
    var s := base + rest;
    assert s[..|base|] == base;
    assert s[|base|..] == rest;
    KeyOfForeignPath(base, rest);
  }

  /** The request handed to the store client: bucket and file pass through, the key is derived. */
  datatype PutRequest = PutRequest(bucket: string, key: string, file: Path)

  /** AWSS3Writer.upload: the putObject call it makes for `file`. */
  function UploadRequest(bucket: string, base: string, file: Path): (r: PutRequest)
    ensures r.bucket == bucket && r.file == file
    ensures |r.key| <= |file|
    ensures !Occurs(base, file) ==> r.key == file
  {
    assert !Occurs(base, file) ==> Strip(file, base) == file by {
      if !Occurs(base, file) {
        KeyOfForeignPath(base, file);
      }
    }
    PutRequest(bucket, Strip(file, base), file)
  }
}

=== FILE: prelude.dfy ===
/** Types shared by every part of the sink model. */
module Prelude {

  /** The conventional Some/None datatype, used where the source returns null. */
  datatype Option<+T> = None | Some(value: T)

  newtype Byte = x: int | 0 <= x < 0x100

  type Bytes = seq<Byte>

  /** An absolute local file path; '/' separates its components. */
  type Path = string

  /** The byte the sink writes after every record body ("\n"). */
  const NewLine: Byte := 10

  function Min(a: nat, b: nat): (m: nat)
    ensures m <= a && m <= b && (m == a || m == b)
  {
    if a <= b then a else b
  }

  /** No element occurs twice. */
  ghost predicate Distinct<T>(s: seq<T>) {
    forall i, j :: 0 <= i < j < |s| ==> s[i] != s[j]
  }
}

=== FILE: roller.dfy ===
/**
 One roll (FileRoller.roll) and the upload tasks it submits.

 A roll lists the non-hidden files of the local base directory; if there are
 none, or a roll is already in flight, it does nothing. Otherwise it raises
 the upload flag, which makes every later S3Sink.process back off, closes
 every cached handle, and submits one task per listed file. A task
 compresses its file unless the name already ends in ".gz", uploads the
 result, deletes the file and the artifact, and counts itself done; the task
 that completes the count generates a new batch identifier and lowers the
 flag.

 Each task is one atomic step; the order in which the pool runs them is an
 input, and so are the compressor's and the store's outcomes and the clock
 each task reads.
 */
module Roller {
  import opened Prelude
  import opened WriterCache
  import opened LocalStore
  import opened BatchIdentifier
  import opened Codecs
  import opened ObjectKey
  import opened FileNames
  import opened SinkState

  /** The files a roll uploads: every file of the base directory that is not hidden. */
  function Snapshot(files: Files): (snap: set<Path>)
    ensures forall p :: p in snap <==> p in files && !Hidden(p)
  {
    set p | p in files && !Hidden(p)
  }

  /**
   The synchronous part of a roll. With nothing to upload, or while a roll is
   in flight, the sink is left as it is. Otherwise the flag goes up and the
   roll waits for the transaction flag to come down. Steps are atomic here,
   so a raised transaction flag is one that a step left raised, and the wait
   never ends: the roll stays there with the flag up, closing nothing and
   starting no cycle. With the transaction flag down, every handle is closed
   (those in `closeFails` fail to flush) and the cache is emptied, and a
   cycle starts over the files listed before the handles were closed.
   */
  function RollBegin(cfg: Config, s: Sink, closeFails: set<Path>): (r: Sink)
    requires Valid(s.cache)
    ensures Snapshot(s.files) == {} || s.uploadFlag ==> r == s
    ensures Snapshot(s.files) != {} && !s.uploadFlag && s.transactionRunning ==> r == s.(uploadFlag := true)
    ensures Snapshot(s.files) != {} && !s.uploadFlag && !s.transactionRunning ==>
              && r.uploadFlag && Valid(r.cache) && Size(r.cache) == 0 && r.cache.maxOpen == s.cache.maxOpen
              && r.cycle == Some(Cycle(Snapshot(s.files), |Snapshot(s.files)|, 0))
              && r == s.(uploadFlag := true, cache := r.cache, files := r.files, cycle := r.cycle)
  {
    var snap := Snapshot(s.files);
    if snap == {} || s.uploadFlag then s
    else if s.transactionRunning then s.(uploadFlag := true)
    else
      var closed := CloseAll(s.cache);
      s.(uploadFlag := true, cache := closed.1, files := CloseEach(s.files, closed.0, closeFails),
         cycle := Some(Cycle(snap, |snap|, 0)))
  }

  /**
   Starting a roll loses no byte whose handle closes: once past the wait,
   every file holds what it held plus what its handle had buffered, which is
   its content as the sink saw it; a handle whose close fails loses its
   buffer. A roll stopped at the wait closes nothing.
   */
  lemma RollFlushes(cfg: Config, s: Sink, closeFails: set<Path>, q: Path)
    requires Valid(s.cache) && Snapshot(s.files) != {} && !s.uploadFlag
    ensures !s.transactionRunning ==>
              Read(RollBegin(cfg, s, closeFails).files, q)
              == Read(s.files, q) + (if q !in closeFails then Buffered(s.cache, q) else [])
    ensures !s.transactionRunning && q !in closeFails ==> Read(RollBegin(cfg, s, closeFails).files, q) == Content(s, q)
    ensures s.transactionRunning ==> RollBegin(cfg, s, closeFails).files == s.files
  {
    if !s.transactionRunning {
      CloseAllFlushes(s.files, s.cache, closeFails, q);
    }
  }

  /** With the sink invariant, closing the handles adds no file, so the listing is still exact. */
  lemma RollKeepsListing(cfg: Config, s: Sink, closeFails: set<Path>)
    requires Inv(cfg, s)
    ensures RollBegin(cfg, s, closeFails).files.Keys == s.files.Keys
  {
    if Snapshot(s.files) != {} && !s.uploadFlag {
      RollBeginFiles(cfg, s, closeFails);
      CloseAllKeys(s.files, s.cache, closeFails);
    }
  }

  /** When a roll starts, the files are those left by closing every cached handle. */
  lemma RollBeginFiles(cfg: Config, s: Sink, closeFails: set<Path>)
    requires Valid(s.cache) && Snapshot(s.files) != {} && !s.uploadFlag && !s.transactionRunning
    ensures RollBegin(cfg, s, closeFails).files == CloseEach(s.files, CloseAll(s.cache).0, closeFails)
  {
  }

  lemma RollBeginPreservesInv(cfg: Config, s: Sink, closeFails: set<Path>)
    requires Inv(cfg, s)
    ensures Inv(cfg, RollBegin(cfg, s, closeFails))
  {
    if Snapshot(s.files) != {} && !s.uploadFlag {
      var snap := Snapshot(s.files);
      assert |snap| > 0;
    }
  }

  /** What the compressor does for a task: GZIP output, or an I/O error. */
  datatype Compression = Compressed(data: Bytes) | CompressFailed

  /** The outcomes a task meets: the compressor's, whether putObject succeeds, and the clock it reads. */
  datatype TaskInput = TaskInput(compression: Compression, uploadOk: bool, clock: nat)

  /**
   The compression stage of a task. A file whose name ends in ".gz" is used as
   it is, and so is every file under the passthrough; under GZIP the artifact
   is written next to the file and used instead, and a failure leaves no file
   to upload.
   */
  function CompressStage(codec: Codec, files: Files, p: Path, c: Compression): (r: (Files, Option<Path>))
    ensures Extension(Name(p)) == "gz" || codec == NullCodec ==> r == (files, Some(p))
    ensures Extension(Name(p)) != "gz" && codec == GzipCodec ==>
              r.1 == (if p in files && c.Compressed? then Some(GzPath(p)) else None)
    ensures r.1 == Some(GzPath(p)) ==> r.0 == files[GzPath(p) := c.data]
    ensures r.1 != Some(GzPath(p)) ==> r.0 == files
  {
    if Extension(Name(p)) == "gz" || codec == NullCodec then (files, Some(p))
    else if p in files && c.Compressed? then
      assert GzPath(p) != p;
      (files[GzPath(p) := c.data], Some(GzPath(p)))
    else (files, None)
  }

  /**
   The upload stage: when the file to upload exists and putObject succeeds,
   the store gets its bytes under the derived key, and then the task's file
   and the uploaded file are deleted. If there is no file to upload, or it is
   missing, or the put fails, nothing is deleted.
   */
  function UploadStage(cfg: Config, s: Sink, p: Path, files: Files, upload: Option<Path>, ok: bool): (r: Sink)
    ensures r == s.(files := r.files, remote := r.remote)
    ensures r.files.Keys <= files.Keys
    ensures r.remote != s.remote || r.files != files ==> upload.Some? && upload.value in files && ok
    ensures upload.Some? && upload.value in files && ok ==>
              && p !in r.files && upload.value !in r.files
              && var key := UploadRequest(cfg.bucketName, cfg.localBaseDirectory, upload.value).key;
                 key in r.remote && r.remote[key] == files[upload.value]
  {
    if upload.Some? && upload.value in files && ok then
      var key := UploadRequest(cfg.bucketName, cfg.localBaseDirectory, upload.value).key;
      s.(files := files - {p} - {upload.value}, remote := s.remote[key := files[upload.value]])
    else s.(files := files)
  }

  /**
   The `finally` block of a task: count it done; the task that brings the
   count to the number submitted generates a new identifier and lowers the
   flag, ending the cycle.
   */
  function Finish(s: Sink, p: Path, clock: nat): (r: Sink)
    requires s.cycle.Some?
    ensures r.cycle.None? <==> s.cycle.value.done + 1 == s.cycle.value.total
    ensures r.cycle.None? ==> !r.uploadFlag && r.identifier == Generate(clock)
    ensures r.cycle.Some? ==>
              && r.cycle.value.done == s.cycle.value.done + 1 && r.cycle.value.total == s.cycle.value.total
              && r.cycle.value.pending == s.cycle.value.pending - {p}
              && r.uploadFlag == s.uploadFlag && r.identifier == s.identifier
    ensures r.files == s.files && r.remote == s.remote && r.cache == s.cache && r.counters == s.counters
  {
    var c := s.cycle.value;
    if c.done + 1 == c.total then s.(identifier := Generate(clock), uploadFlag := false, cycle := None)
    else s.(cycle := Some(Cycle(c.pending - {p}, c.total, c.done + 1)))
  }

  /** The key a task uploads its file under, when the compressor yields `upload`. */
  function KeyFor(cfg: Config, upload: Path): string {
    UploadRequest(cfg.bucketName, cfg.localBaseDirectory, upload).key
  }

  /** One upload task, for the file `p` of the cycle in flight. */
  function RunTask(cfg: Config, s: Sink, p: Path, input: TaskInput): (r: Sink)
    requires s.cycle.Some? && p in s.cycle.value.pending
    ensures r.cache == s.cache && r.counters == s.counters
  {
    var compressed := CompressStage(cfg.codec, s.files, p, input.compression);
    var uploaded := UploadStage(cfg, s, p, compressed.0, compressed.1, input.uploadOk);
    Finish(uploaded, p, input.clock)
  }

  /** A task touches no file but its own and its artifact. */
  lemma TaskFrame(cfg: Config, s: Sink, p: Path, input: TaskInput, q: Path)
    requires s.cycle.Some? && p in s.cycle.value.pending
    requires q != p && q != GzPath(p)
    ensures Read(RunTask(cfg, s, p, input).files, q) == Read(s.files, q)
  {
    var compressed := CompressStage(cfg.codec, s.files, p, input.compression);
    assert compressed.1 == None || compressed.1 == Some(p) || compressed.1 == Some(GzPath(p));
    assert Read(compressed.0, q) == Read(s.files, q);
    UploadFrame(cfg, s, p, compressed.0, compressed.1, input.uploadOk, q);
  }

  /** The upload stage deletes nothing but the task's file and the uploaded one. */
  lemma UploadFrame(cfg: Config, s: Sink, p: Path, files: Files, upload: Option<Path>, ok: bool, q: Path)
    requires q != p && (upload.None? || q != upload.value)
    ensures Read(UploadStage(cfg, s, p, files, upload, ok).files, q) == Read(files, q)
  {
    if upload.Some? && upload.value in files && ok {
      var rest := files - {p} - {upload.value};
      assert UploadStage(cfg, s, p, files, upload, ok).files == rest;
      assert q in rest <==> q in files;
    }
  }

  /** The task put its upload through: the compressor left a file to upload, it exists, and putObject succeeded. */
  predicate Sent(cfg: Config, s: Sink, p: Path, input: TaskInput) {
    var c := CompressStage(cfg.codec, s.files, p, input.compression);
    c.1.Some? && c.1.value in c.0 && input.uploadOk
  }

  /**
   A file is deleted only after its upload succeeded, and then the store holds
   the uploaded bytes under the derived key; a failed task changes nothing in
   the store and keeps the file, with its bytes, for a later roll.
   */
  lemma DeletesOnlyAfterUpload(cfg: Config, s: Sink, p: Path, input: TaskInput)
    requires s.cycle.Some? && p in s.cycle.value.pending && p in s.files
    ensures var r := RunTask(cfg, s, p, input);
            var c := CompressStage(cfg.codec, s.files, p, input.compression);
            && (p !in r.files <==> Sent(cfg, s, p, input))
            && (Sent(cfg, s, p, input) ==> r.remote == s.remote[KeyFor(cfg, c.1.value) := c.0[c.1.value]])
            && (!Sent(cfg, s, p, input) ==> r.remote == s.remote && r.files[p] == s.files[p])
  {
    assert GzPath(p) != p;
  }

  /**
   With the passthrough, or for a file already named ".gz", the store receives
   the file's own bytes under the file's key, and the file is gone.
   */
  lemma UploadsFileAsIs(cfg: Config, s: Sink, p: Path, input: TaskInput)
    requires s.cycle.Some? && p in s.cycle.value.pending && p in s.files && input.uploadOk
    requires cfg.codec == NullCodec || Extension(Name(p)) == "gz"
    ensures var r := RunTask(cfg, s, p, input);
            && KeyFor(cfg, p) in r.remote && r.remote[KeyFor(cfg, p)] == s.files[p]
            && p !in r.files
  {
  }

  /**
   Under GZIP a file not yet named ".gz" is uploaded as the artifact next to
   it: the store receives the compressor's output under the artifact's key,
   and both the file and the artifact are gone.
   */
  lemma UploadsArtifact(cfg: Config, s: Sink, p: Path, data: Bytes, ok: bool, clock: nat)
    requires s.cycle.Some? && p in s.cycle.value.pending && p in s.files
    requires cfg.codec == GzipCodec && Extension(Name(p)) != "gz"
    ensures var r := RunTask(cfg, s, p, TaskInput(Compressed(data), ok, clock));
            && (ok ==> KeyFor(cfg, GzPath(p)) in r.remote && r.remote[KeyFor(cfg, GzPath(p))] == data)
            && (ok ==> p !in r.files && GzPath(p) !in r.files)
            && (!ok ==> r.files == s.files[GzPath(p) := data])
  {
    var compressed := CompressStage(cfg.codec, s.files, p, Compressed(data));
    assert compressed == (s.files[GzPath(p) := data], Some(GzPath(p)));
    var uploaded := UploadStage(cfg, s, p, compressed.0, compressed.1, ok);
    assert RunTask(cfg, s, p, TaskInput(Compressed(data), ok, clock)) == Finish(uploaded, p, clock);
  }

  /** Tasks never touch hidden files: a task's file is listed, hence not hidden, and so is its artifact. */
  lemma HiddenFilesUntouched(cfg: Config, s: Sink, p: Path, input: TaskInput, q: Path)
    requires s.cycle.Some? && p in s.cycle.value.pending && !Hidden(p) && Name(p) != []
    requires Hidden(q)
    ensures Read(RunTask(cfg, s, p, input).files, q) == Read(s.files, q)
  {
    GzHiddenIffHidden(p);
    TaskFrame(cfg, s, p, input, q);
  }

  lemma TaskPreservesInv(cfg: Config, s: Sink, p: Path, input: TaskInput)
    requires Inv(cfg, s) && s.cycle.Some? && p in s.cycle.value.pending
    ensures Inv(cfg, RunTask(cfg, s, p, input))
  {
    var c := s.cycle.value;
    assert |c.pending - {p}| == |c.pending| - 1;
    if c.done + 1 != c.total {
      assert c.pending - {p} != {};
    }
  }

  /* ---------- A whole cycle ---------- */

  /**
   `order` can run as tasks of the cycle in flight: distinct files, all still
   pending, with the count consistent.
   */
  ghost predicate Runnable(s: Sink, order: seq<Path>) {
    order != [] ==>
      && s.cycle.Some?
      && Distinct(order)
      && (forall i :: 0 <= i < |order| ==> order[i] in s.cycle.value.pending)
      && s.cycle.value.done + |s.cycle.value.pending| == s.cycle.value.total
  }

  /** The pool runs the tasks of `order` one after another, the i-th meeting `inputs[i]`. */
  function RunTasks(cfg: Config, s: Sink, order: seq<Path>, inputs: seq<TaskInput>): (r: Sink)
    requires |inputs| == |order| && Runnable(s, order)
    ensures r.cache == s.cache && r.counters == s.counters
    ensures r.transactionRunning == s.transactionRunning
    decreases |order|
  {
    if order == [] then s
    else
      var next := RunTask(cfg, s, order[0], inputs[0]);
      RunnableAfterTask(cfg, s, order, inputs[0]);
      RunTasks(cfg, next, order[1..], inputs[1..])
  }

  /** After the first task of `order` runs, the rest of `order` is still runnable. */
  lemma RunnableAfterTask(cfg: Config, s: Sink, order: seq<Path>, input: TaskInput)
    requires order != [] && Runnable(s, order)
    ensures Runnable(RunTask(cfg, s, order[0], input), order[1..])
  {
    var c := s.cycle.value;
    var rest := order[1..];
    assert |c.pending - {order[0]}| == |c.pending| - 1;
    if rest != [] {
      assert order[1] in c.pending && order[1] != order[0];
      assert order[1] in c.pending - {order[0]};
      assert Distinct(rest) by {
        forall i, j | 0 <= i < j < |rest| ensures rest[i] != rest[j] {
          assert rest[i] == order[i + 1] && rest[j] == order[j + 1];
        }
      }
      forall i | 0 <= i < |rest| ensures rest[i] in c.pending - {order[0]} {
        assert rest[i] == order[i + 1];
      }
    }
  }

  /**
   Running tasks counts them down: fewer tasks than files pending leave the
   cycle in flight with the flag up, the identifier as it was and the count
   advanced by the number of tasks; as many tasks as files pending end the
   cycle, lowering the flag and taking the identifier from the clock the last
   task read.
   */
  lemma {:induction false} RunTasksCount(cfg: Config, s: Sink, order: seq<Path>, inputs: seq<TaskInput>)
    requires |inputs| == |order| && Runnable(s, order)
    requires s.uploadFlag && s.cycle.Some? && s.cycle.value.pending != {}
    ensures var r := RunTasks(cfg, s, order, inputs);
            |order| < |s.cycle.value.pending| ==>
              && r.uploadFlag && r.cycle.Some? && r.identifier == s.identifier
              && r.cycle.value.done == s.cycle.value.done + |order|
              && |r.cycle.value.pending| == |s.cycle.value.pending| - |order|
              && r.cycle.value.pending != {}
    ensures var r := RunTasks(cfg, s, order, inputs);
            |order| == |s.cycle.value.pending| ==>
              && !r.uploadFlag && r.cycle == None
              && r.identifier == Generate(inputs[|inputs| - 1].clock)
    decreases |order|
  {
    if order != [] {
      var c := s.cycle.value;
      var next := RunTask(cfg, s, order[0], inputs[0]);
      RunnableAfterTask(cfg, s, order, inputs[0]);
      TaskCycle(cfg, s, order[0], inputs[0]);
      assert RunTasks(cfg, s, order, inputs) == RunTasks(cfg, next, order[1..], inputs[1..]);
      assert |c.pending - {order[0]}| == |c.pending| - 1;
      if |c.pending| > 1 {
        assert c.pending - {order[0]} != {};
        RunTasksCount(cfg, next, order[1..], inputs[1..]);
      }
    }
  }

  /** A task moves the cycle, the flag and the identifier exactly as its `finally` block does. */
  lemma TaskCycle(cfg: Config, s: Sink, p: Path, input: TaskInput)
    requires s.cycle.Some? && p in s.cycle.value.pending
    ensures var r := RunTask(cfg, s, p, input); var f := Finish(s, p, input.clock);
            r.cycle == f.cycle && r.uploadFlag == f.uploadFlag && r.identifier == f.identifier
  {
  }

  /** A prefix of runnable tasks is runnable. */
  lemma RunnablePrefix(s: Sink, order: seq<Path>, k: nat)
    requires Runnable(s, order) && k <= |order|
    ensures Runnable(s, order[..k])
  {
    assert forall i :: 0 <= i < k ==> order[..k][i] == order[i];
  }

  /**
   Running every pending task, in any order, ends the cycle exactly once and
   at the last task: the flag stays up (so ingestion keeps backing off) and
   the identifier stays as it was while any task is left; the flag comes down
   after the last one, with the identifier generated from the clock that task
   read. `order` lists distinct pending
   files, as many as are pending, so it lists each of them once.
   */
  lemma CycleReleasesOnce(cfg: Config, s: Sink, order: seq<Path>, inputs: seq<TaskInput>)
    requires |inputs| == |order| && Runnable(s, order)
    requires s.uploadFlag && s.cycle.Some? && s.cycle.value.pending != {}
    requires |order| == |s.cycle.value.pending|
    ensures forall k :: 0 <= k < |order| ==>
              && RunTasks(cfg, s, order[..k], inputs[..k]).uploadFlag
              && RunTasks(cfg, s, order[..k], inputs[..k]).identifier == s.identifier
    ensures var r := RunTasks(cfg, s, order, inputs);
            && !r.uploadFlag && r.cycle == None
            && r.identifier == Generate(inputs[|inputs| - 1].clock)
  {
    forall k | 0 <= k < |order|
      ensures RunTasks(cfg, s, order[..k], inputs[..k]).uploadFlag
      ensures RunTasks(cfg, s, order[..k], inputs[..k]).identifier == s.identifier
    {
      RunnablePrefix(s, order, k);
      RunTasksCount(cfg, s, order[..k], inputs[..k]);
    }
    RunTasksCount(cfg, s, order, inputs);
  }

  /* ---------- From the sink to the store ---------- */

  /**
   End to end under the passthrough: a listed file whose handle closes
   cleanly reaches the store, under its own key, holding exactly the content
   the sink had for it (written bytes and buffered bytes), and is then
   deleted locally. Paths are strings here, so this is the behaviour for a
   normalised path under the base directory, whose text is the file's
   absolute path.
   */
  lemma RolledFileArrives(cfg: Config, s: Sink, closeFails: set<Path>, p: Path, input: TaskInput)
    requires Inv(cfg, s) && !s.uploadFlag && p in s.files && !Hidden(p) && p !in closeFails
    requires cfg.codec == NullCodec && input.uploadOk
    ensures var b := RollBegin(cfg, s, closeFails);
            && b.cycle.Some? && p in b.cycle.value.pending
            && var r := RunTask(cfg, b, p, input);
               && KeyFor(cfg, p) in r.remote && r.remote[KeyFor(cfg, p)] == Content(s, p)
               && p !in r.files
  {
    assert p in Snapshot(s.files);
    var b := RollBegin(cfg, s, closeFails);
    RollFlushes(cfg, s, closeFails, p);
    RollKeepsListing(cfg, s, closeFails);
    UploadsFileAsIs(cfg, b, p, input);
  }

  /* ---------- Starting the sink ---------- */

  /** The sink after start(): its state, and whether rolls are scheduled at a fixed rate. */
  datatype Started = Started(sink: Sink, periodic: bool)

  /**
   S3Sink.start over a configured sink: a fresh cache, then one roll before
   any event is taken, so files left by an earlier run are uploaded first;
   periodic rolls are scheduled only for a positive roll interval.
   */
  function Start(cfg: Config, disk: Files, clock: nat, rollInterval: int): (r: Started)
    ensures Inv(cfg, r.sink)
    ensures r.periodic <==> rollInterval > 0
    ensures r.sink.files == disk && r.sink.remote == map[] && r.sink.identifier == Generate(clock)
    ensures r.sink.uploadFlag <==> Snapshot(disk) != {}
    ensures r.sink.uploadFlag ==> r.sink.cycle.value.pending == Snapshot(disk)
  {
    var s := Fresh(cfg, disk, clock);
    RollBeginPreservesInv(cfg, s, {});
    assert RollBegin(cfg, s, {}).files == disk by {
      assert CloseAll(s.cache).0 == [];
    }
    Started(RollBegin(cfg, s, {}), rollInterval > 0)
  }
}

=== FILE: sink_state.dfy ===
/**
 The state the ingestion step and the roller share: the two coordination
 flags, the handle cache, the local files, the remote store, the operator
 counters, the current batch identifier, and the roll cycle in flight.
 */
module SinkState {
  import opened Prelude
  import opened WriterCache
  import opened LocalStore
  import opened BatchIdentifier
  import opened Codecs

  type Headers = map<string, string>

  /** A channel event: header attributes and an opaque body. */
  datatype Event = Event(headers: Headers, body: Bytes)

  /**
   The settings the core uses. `escape` stands for Flume's
   BucketPath.escapeString, which fills a template's placeholders from an
   event's headers.
   */
  datatype Config = Config(
    localBaseDirectory: string,
    filePath: string,
    fileName: string,
    suffix: string,
    bucketName: string,
    batchSize: nat,
    maxOpenFiles: nat,
    codec: Codec,
    escape: (string, Headers) -> string)

  /** The SinkCounter values the core increments. */
  datatype Counters = Counters(
    batchEmpty: nat,
    batchUnderflow: nat,
    batchComplete: nat,
    drainSuccess: nat,
    writeFail: nat,
    writeOrChannelFail: nat)

  const NoCounts := Counters(0, 0, 0, 0, 0, 0)

  /**
   A roll cycle in flight: the files whose upload task has not run yet, how
   many tasks were submitted, and how many have finished.
   */
  datatype Cycle = Cycle(pending: set<Path>, total: nat, done: nat)

  datatype Sink = Sink(
    uploadFlag: bool,
    transactionRunning: bool,
    cache: Lru<Path, Handle>,
    files: Files,
    remote: map<string, Bytes>,
    counters: Counters,
    identifier: Identifier,
    cycle: Option<Cycle>)

  /** The bytes buffered in the open handle of `p`, if there is one. */
  function Buffered(c: Lru<Path, Handle>, p: Path): Bytes {
    if p in c.handles then c.handles[p].buffer else []
  }

  /** What the file at `p` will hold once its handle is closed. */
  function Content(s: Sink, p: Path): Bytes {
    Read(s.files, p) + Buffered(s.cache, p)
  }

  /** Every cached handle belongs to an existing file. */
  ghost predicate HandlesOnFiles(s: Sink) {
    forall q :: q in s.cache.handles ==> q in s.files
  }

  /**
   The invariant of every state between steps: a well-formed cache of the
   configured size whose every key is an existing file; the upload flag is
   set exactly while a cycle is in flight, and then the cache is empty and
   the task counter is consistent; no transaction is running.
   */
  ghost predicate Inv(cfg: Config, s: Sink) {
    && Valid(s.cache)
    && s.cache.maxOpen == cfg.maxOpenFiles
    && HandlesOnFiles(s)
    && (s.uploadFlag <==> s.cycle.Some?)
    && (s.cycle.Some? ==>
          && Size(s.cache) == 0
          && s.cycle.value.pending != {}
          && s.cycle.value.done + |s.cycle.value.pending| == s.cycle.value.total)
    && !s.transactionRunning
  }

  /** The sink as configure() and the WriterLinkedHashMap constructor leave it, over an existing directory. */
  function Fresh(cfg: Config, disk: Files, clock: nat): (s: Sink)
    ensures Inv(cfg, s)
    ensures s.files == disk && s.remote == map[] && Size(s.cache) == 0
    ensures !s.uploadFlag && s.identifier == Generate(clock)
  {
    Sink(false, false, New(cfg.maxOpenFiles), disk, map[], NoCounts, Generate(clock), None)
  }
}

=== FILE: stuck_roll.dfy ===
/**
 What a stuck transaction flag does to the roll (S3Sink.process and
 FileRoller.roll together). Once a roll with files to upload raises the
 upload flag over a transaction flag that a failing begin or close left
 raised, the roll waits for ever, every later step backs off before it
 could lower the transaction flag, and no task is pending whose `finally`
 block could lower the upload flag.
 */
module StuckRoll {
  import opened Prelude
  import opened WriterCache
  import opened SinkState
  import opened Ingestion
  import opened Roller

  /** The roll sits in its busy-wait: both flags are up and no cycle is running. */
  ghost predicate Hung(s: Sink) {
    s.uploadFlag && s.transactionRunning && s.cycle.None?
  }

  /**
   What can happen to the sink from outside: a process call, as coded, or a
   roll. A task needs a running cycle, so it is not among them.
   */
  datatype Action =
    | StepAction(channel: seq<Event>, closeFails: set<nat>, fault: Fault, tx: Option<TxFault>)
    | RollAction(rollFails: set<Path>)

  function Perform(cfg: Config, s: Sink, a: Action): (r: Sink)
    requires Valid(s.cache)
    ensures Valid(r.cache)
  {
    match a
    case StepAction(channel, closeFails, fault, tx) =>
      ProcessKeepsCache(cfg, s, channel, closeFails, fault);
      StepAsWritten(cfg, s, channel, closeFails, fault, tx).sink
    case RollAction(rollFails) => RollBegin(cfg, s, rollFails)
  }

  /** Performs the actions in turn. */
  function Run(cfg: Config, s: Sink, actions: seq<Action>): (r: Sink)
    requires Valid(s.cache)
    ensures Valid(r.cache)
    decreases |actions|
  {
    if actions == [] then s else Run(cfg, Perform(cfg, s, actions[0]), actions[1..])
  }

  /**
   From any invariant state not uploading, a step whose begin or close fails,
   followed by a roll with files to upload, leaves the roll in its wait. A
   failing begin touches neither the files nor the cache, so then the roll
   only needs the files that were already there.
   */
  lemma RollHangsAfterStuckStep(cfg: Config, s: Sink, channel: seq<Event>, closeFails: set<nat>, fault: Fault,
                                tx: TxFault, rollFails: set<Path>)
    requires Inv(cfg, s) && !s.uploadFlag
    requires Snapshot(StepAsWritten(cfg, s, channel, closeFails, fault, Some(tx)).sink.files) != {}
    ensures var t := StepAsWritten(cfg, s, channel, closeFails, fault, Some(tx)).sink;
            var b := RollBegin(cfg, t, rollFails);
            && Hung(b)
            && (tx == BeginFails ==> b.files == s.files && b.cache == s.cache)
  {
    StuckTransactionFlag(cfg, s, channel, closeFails, fault, tx);
  }

  /** In the wait, a step backs off and a roll finds one in flight: neither changes anything. */
  lemma HungIsStable(cfg: Config, s: Sink, a: Action)
    requires Valid(s.cache) && Hung(s)
    ensures Perform(cfg, s, a) == s
  {
    if a.StepAction? {
      StuckFlagOutlastsRoll(cfg, s, a.channel, a.closeFails, a.fault, a.tx);
    }
  }

  /** The wait never ends: whatever steps and rolls follow, the sink stays as it is. */
  lemma {:induction false} HungForever(cfg: Config, s: Sink, actions: seq<Action>)
    requires Valid(s.cache) && Hung(s)
    ensures Run(cfg, s, actions) == s
    decreases |actions|
  {
    if actions != [] {
      HungIsStable(cfg, s, actions[0]);
      HungForever(cfg, s, actions[1..]);
    }
  }

  /**
   With the flag lowered on every exit, the wait cannot hang: from the sink
   invariant, neither a corrected step followed by a roll nor a roll alone
   reaches the wait with the transaction flag up.
   */
  lemma CorrectedStepNeverHangs(cfg: Config, s: Sink, channel: seq<Event>, closeFails: set<nat>, fault: Fault,
                                tx: Option<TxFault>, rollFails: set<Path>)
    requires Inv(cfg, s)
    ensures !Hung(RollBegin(cfg, s, rollFails))
    ensures var t := Step(cfg, s, channel, closeFails, fault, tx).sink;
            Inv(cfg, t) && !Hung(RollBegin(cfg, t, rollFails))
  {
    StepPreservesInv(cfg, s, channel, closeFails, fault, tx);
  }
}

=== FILE: writer_cache.dfy ===
/**
 The bounded, access-ordered cache of open output handles (WriterLinkedHashMap).

 The cache is an ordered list of keys plus an index from key to handle. The
 list runs from the least recently used key to the most recently used one;
 both `Get` of a present key and `Put` move the key to the end. Inserting a
 NEW key that pushes the size past `maxOpen` removes the eldest entry and
 hands it back to the caller, who closes its handle.
 */
module WriterCache {
  import opened Prelude

  datatype Lru<K(==, !new), V> = Lru(maxOpen: nat, order: seq<K>, handles: map<K, V>)

  /** Well-formed: the list and the index hold the same keys, once each, and no more than `maxOpen`. */
  ghost predicate Valid<K(!new), V>(c: Lru<K, V>) {
    && Distinct(c.order)
    && (forall k :: k in c.order <==> k in c.handles)
    && |c.order| <= c.maxOpen
  }

  function Size<K(==, !new), V>(c: Lru<K, V>): nat {
    |c.order|
  }

  /** A fresh cache: empty, access ordered, bounded by `maxOpen`. */
  function New<K(==, !new), V>(maxOpen: nat): (c: Lru<K, V>)
    ensures Valid(c) && c.maxOpen == maxOpen
    ensures Size(c) == 0 && c.handles == map[]
  {
    Lru(maxOpen, [], map[])
  }

  /** `s` without `k`, other elements in their original order. */
  function Remove<K(==, !new)>(s: seq<K>, k: K): (r: seq<K>)
    ensures forall x :: x in r <==> x in s && x != k
    ensures |r| <= |s|
    ensures k !in s ==> r == s
  {
    if s == [] then []
    else if s[0] == k then Remove(s[1..], k)
    else [s[0]] + Remove(s[1..], k)
  }

  lemma {:induction false} RemoveDistinct<K(!new)>(s: seq<K>, k: K)
    requires Distinct(s)
    ensures Distinct(Remove(s, k))
    ensures k in s ==> |Remove(s, k)| == |s| - 1
    decreases |s|
  {
    if s != [] {
      assert Distinct(s[1..]) by {
        forall i, j | 0 <= i < j < |s[1..]| ensures s[1..][i] != s[1..][j] {
          assert s[1..][i] == s[i + 1] && s[1..][j] == s[j + 1];
        }
      }
      RemoveDistinct(s[1..], k);
      if s[0] == k {
        assert k !in s[1..] by {
          forall i | 0 <= i < |s[1..]| ensures s[1..][i] != k {
            assert s[1..][i] == s[i + 1];
          }
        }
      } else {
        var t := Remove(s[1..], k);
        assert s[0] !in s[1..] by {
          forall i | 0 <= i < |s[1..]| ensures s[1..][i] != s[0] {
            assert s[1..][i] == s[i + 1];
          }
        }
        assert s[0] !in t;
        forall i, j | 0 <= i < j < |[s[0]] + t| ensures ([s[0]] + t)[i] != ([s[0]] + t)[j] {
          if i == 0 {
            assert ([s[0]] + t)[j] == t[j - 1];
          } else {
            assert ([s[0]] + t)[i] == t[i - 1] && ([s[0]] + t)[j] == t[j - 1];
          }
        }
        if k in s {
          assert k in s[1..];
        }
      }
    }
  }

  /** Appending a key that is not yet present keeps a list duplicate-free. */
  lemma AppendDistinct<K(!new)>(s: seq<K>, k: K)
    requires Distinct(s) && k !in s
    ensures Distinct(s + [k])
  {
    forall i, j | 0 <= i < j < |s + [k]| ensures (s + [k])[i] != (s + [k])[j] {
      if j == |s| {
        assert (s + [k])[i] == s[i];
      } else {
        assert (s + [k])[i] == s[i] && (s + [k])[j] == s[j];
      }
    }
  }

  lemma TailDistinct<K(!new)>(s: seq<K>)
    requires Distinct(s) && s != []
    ensures Distinct(s[1..]) && s[0] !in s[1..]
  {
    assert forall i :: 0 <= i < |s[1..]| ==> s[1..][i] == s[i + 1];
  }

  /** Moves `k` to the most-recently-used end. */
  function Touch<K(==, !new)>(s: seq<K>, k: K): (r: seq<K>)
    ensures |r| > 0 && r[|r| - 1] == k
    ensures forall x :: x in r <==> x in s || x == k
  {
    Remove(s, k) + [k]
  }

  lemma TouchDistinct<K(!new)>(s: seq<K>, k: K)
    requires Distinct(s)
    ensures Distinct(Touch(s, k))
    ensures k in s ==> |Touch(s, k)| == |s|
    ensures k !in s ==> |Touch(s, k)| == |s| + 1
  {
    RemoveDistinct(s, k);
    AppendDistinct(Remove(s, k), k);
  }

  /**
   LinkedHashMap.get under access order: a present key yields its handle and
   becomes most recently used; a missing key yields nothing and changes nothing.
   */
  function Get<K(==, !new), V>(c: Lru<K, V>, k: K): (r: (Lru<K, V>, Option<V>))
    requires Valid(c)
    ensures Valid(r.0) && r.0.maxOpen == c.maxOpen
    ensures r.0.handles == c.handles && Size(r.0) == Size(c)
    ensures k in c.handles ==> r.1 == Some(c.handles[k]) && r.0.order[Size(r.0) - 1] == k
    ensures k in c.handles ==> Remove(r.0.order, k) == Remove(c.order, k)
    ensures k !in c.handles ==> r == (c, None)
  {
    if k in c.handles then
      TouchDistinct(c.order, k);
      RemoveDistinct(c.order, k);
      assert Remove(Touch(c.order, k), k) == Remove(c.order, k) by {
        RemoveAppendOther(Remove(c.order, k), k);
      }
      (c.(order := Touch(c.order, k)), Some(c.handles[k]))
    else
      (c, None)
  }

  lemma {:induction false} RemoveAppendOther<K(!new)>(s: seq<K>, k: K)
    requires k !in s
    ensures Remove(s + [k], k) == s
    decreases |s|
  {
    if s == [] {
      assert [k][1..] == [];
    } else {
      assert (s + [k])[1..] == s[1..] + [k];
      RemoveAppendOther(s[1..], k);
    }
  }

  datatype PutResult<K(==, !new), V> = PutResult(cache: Lru<K, V>, displaced: Option<V>, evicted: Option<(K, V)>)

  /**
   LinkedHashMap.put with WriterLinkedHashMap's removeEldestEntry.

   Replacing the handle of a present key moves it to the most-recently-used
   end, returns the old handle and never evicts. Inserting a new key evicts
   exactly when the size would exceed `maxOpen`, and then the victim is the
   eldest entry, which is the new entry itself when `maxOpen` is 0; every other
   entry keeps its handle and its place in the order.
   */
  function Put<K(==, !new), V>(c: Lru<K, V>, k: K, v: V): (r: PutResult<K, V>)
    requires Valid(c)
    ensures Valid(r.cache) && r.cache.maxOpen == c.maxOpen
    ensures k in c.handles ==>
              && r.displaced == Some(c.handles[k]) && r.evicted == None
              && r.cache.handles == c.handles[k := v] && Size(r.cache) == Size(c)
              && r.cache.order[Size(r.cache) - 1] == k
              && r.cache.order == Remove(c.order, k) + [k]
    ensures k !in c.handles ==> r.displaced == None
    ensures k !in c.handles && Size(c) < c.maxOpen ==>
              && r.evicted == None
              && r.cache.handles == c.handles[k := v]
              && r.cache.order == c.order + [k]
    ensures k !in c.handles && Size(c) == c.maxOpen ==>
              var eldest := if c.order == [] then k else c.order[0];
              && r.evicted == Some((eldest, c.handles[k := v][eldest]))
              && r.cache.handles == c.handles[k := v] - {eldest}
              && r.cache.order == (c.order + [k])[1..]
  {
    if k in c.handles then
      TouchDistinct(c.order, k);
      PutResult(Lru(c.maxOpen, Touch(c.order, k), c.handles[k := v]), Some(c.handles[k]), None)
    else if |c.order| < c.maxOpen then
      AppendDistinct(c.order, k);
      PutResult(Lru(c.maxOpen, c.order + [k], c.handles[k := v]), None, None)
    else
      var order := c.order + [k];
      var handles := c.handles[k := v];
      EvictEldestValid(c, k, v);
      PutResult(Lru(c.maxOpen, order[1..], handles - {order[0]}), None, Some((order[0], handles[order[0]])))
  }

  /** Dropping the eldest key after appending a new one leaves a well-formed cache. */
  lemma EvictEldestValid<K(!new), V>(c: Lru<K, V>, k: K, v: V)
    requires Valid(c) && k !in c.handles && |c.order| == c.maxOpen
    ensures var order := c.order + [k];
            Valid(Lru(c.maxOpen, order[1..], c.handles[k := v] - {order[0]}))
  {
    var order := c.order + [k];
    AppendDistinct(c.order, k);
    TailDistinct(order);
    assert order == [order[0]] + order[1..];
    assert forall x :: x in order[1..] <==> x in order && x != order[0];
  }

  /** Replaces the handle stored under a present key without touching the order (a write through that handle). */
  function SetHandle<K(==, !new), V>(c: Lru<K, V>, k: K, v: V): (r: Lru<K, V>)
    requires Valid(c) && k in c.handles
    ensures Valid(r) && r.maxOpen == c.maxOpen && r.order == c.order
    ensures r.handles == c.handles[k := v]
  {
    c.(handles := c.handles[k := v])
  }

  /**
   WriterLinkedHashMap.close: every entry is handed out for closing, in
   iteration order (least recently used first), each key exactly once, and the
   cache is left empty.
   */
  function CloseAll<K(==, !new), V>(c: Lru<K, V>): (r: (seq<(K, V)>, Lru<K, V>))
    requires Valid(c)
    ensures Valid(r.1) && r.1.maxOpen == c.maxOpen && Size(r.1) == 0
    ensures |r.0| == Size(c)
    ensures Distinct(KeysOf(r.0))
    ensures forall k :: k in c.handles <==> k in KeysOf(r.0)
    ensures forall i :: 0 <= i < |r.0| ==> r.0[i].0 in c.handles && r.0[i].1 == c.handles[r.0[i].0]
  {
    var closed := seq(|c.order|, i requires 0 <= i < |c.order| => (c.order[i], c.handles[c.order[i]]));
    assert KeysOf(closed) == c.order;
    (closed, New(c.maxOpen))
  }

  function KeysOf<K, V>(es: seq<(K, V)>): (ks: seq<K>)
    ensures |ks| == |es| && forall i :: 0 <= i < |es| ==> ks[i] == es[i].0
  {
    seq(|es|, i requires 0 <= i < |es| => es[i].0)
  }

  /* ---------- Recency: the order is the order of last use ---------- */

  /** One access to the cache, as the sink performs them. */
  datatype Access<K, V> = Lookup(key: K) | Insert(key: K, handle: V)

  function Apply<K(==, !new), V>(c: Lru<K, V>, a: Access<K, V>): (r: Lru<K, V>)
    requires Valid(c)
    ensures Valid(r) && r.maxOpen == c.maxOpen
  {
    match a
    case Lookup(k) => Get(c, k).0
    case Insert(k, v) => Put(c, k, v).cache
  }

  /** Performs the accesses in turn. */
  function Replay<K(==, !new), V>(c: Lru<K, V>, accesses: seq<Access<K, V>>): (r: Lru<K, V>)
    requires Valid(c)
    ensures Valid(r) && r.maxOpen == c.maxOpen
    decreases |accesses|
  {
    if accesses == [] then c else Apply(Replay(c, accesses[..|accesses| - 1]), accesses[|accesses| - 1])
  }

  function AccessedKeys<K, V>(accesses: seq<Access<K, V>>): (ks: seq<K>)
    ensures |ks| == |accesses| && forall i :: 0 <= i < |accesses| ==> ks[i] == accesses[i].key
  {
    seq(|accesses|, i requires 0 <= i < |accesses| => accesses[i].key)
  }

  /** Position of the last access to `k` in the history, or -1 if it was never accessed. */
  function LastUse<K(==, !new)>(history: seq<K>, k: K): (t: int)
    ensures -1 <= t < |history|
    ensures t >= 0 <==> k in history
    ensures t >= 0 ==> history[t] == k
    decreases |history|
  {
    if history == [] then -1
    else if history[|history| - 1] == k then |history| - 1
    else
      assert k in history ==> k in history[..|history| - 1] by {
        if k in history {
          var i :| 0 <= i < |history| && history[i] == k;
          assert history[..|history| - 1][i] == k;
        }
      }
      LastUse(history[..|history| - 1], k)
  }

  /** Every cached key has been accessed, and earlier keys in the order were last used earlier. */
  ghost predicate OrderedByRecency<K(!new)>(order: seq<K>, history: seq<K>) {
    && (forall i :: 0 <= i < |order| ==> LastUse(history, order[i]) >= 0)
    && (forall i, j :: 0 <= i < j < |order| ==> LastUse(history, order[i]) < LastUse(history, order[j]))
  }

  lemma {:induction false} RemoveKeepsRecency<K(!new)>(s: seq<K>, k: K, history: seq<K>)
    requires OrderedByRecency(s, history)
    ensures OrderedByRecency(Remove(s, k), history)
    decreases |s|
  {
    if s != [] {
      assert OrderedByRecency(s[1..], history) by {
        assert forall i :: 0 <= i < |s[1..]| ==> s[1..][i] == s[i + 1];
      }
      RemoveKeepsRecency(s[1..], k, history);
      var t := Remove(s[1..], k);
      if s[0] != k {
        forall j | 0 <= j < |t| ensures LastUse(history, s[0]) < LastUse(history, t[j]) {
          assert t[j] in s[1..];
          var m :| 0 <= m < |s[1..]| && s[1..][m] == t[j];
          assert s[m + 1] == t[j];
        }
        ConsKeepsRecency(s[0], t, history);
      }
    }
  }

  /** A key used before every key of an ordered sequence can be put at its front. */
  lemma ConsKeepsRecency<K(!new)>(x: K, t: seq<K>, history: seq<K>)
    requires OrderedByRecency(t, history) && LastUse(history, x) >= 0
    requires forall j :: 0 <= j < |t| ==> LastUse(history, x) < LastUse(history, t[j])
    ensures OrderedByRecency([x] + t, history)
  {
    var r := [x] + t;
    assert forall i :: 0 < i < |r| ==> r[i] == t[i - 1];
  }

  /** A later access leaves the last use of every other key where it was. */
  lemma LastUseOther<K(!new)>(history: seq<K>, k: K, x: K)
    requires x != k
    ensures LastUse(history + [k], x) == LastUse(history, x)
  {
    assert (history + [k])[..|history|] == history;
  }

  lemma {:induction false} TouchKeepsRecency<K(!new)>(s: seq<K>, k: K, history: seq<K>)
    requires OrderedByRecency(s, history)
    ensures OrderedByRecency(Touch(s, k), history + [k])
  {
    RemoveKeepsRecency(s, k, history);
    var t := Remove(s, k);
    var h := history + [k];
    forall i | 0 <= i < |t| ensures LastUse(h, t[i]) == LastUse(history, t[i]) {
      LastUseOther(history, k, t[i]);
    }
    assert LastUse(h, k) == |history|;
    var r := t + [k];
    forall i, j | 0 <= i < j < |r| ensures LastUse(h, r[i]) < LastUse(h, r[j]) {
      assert r[i] == t[i];
      if j < |t| {
        assert r[j] == t[j];
      }
    }
  }

  lemma {:induction false} ApplyKeepsRecency<K(!new), V>(c: Lru<K, V>, a: Access<K, V>, history: seq<K>)
    requires Valid(c) && OrderedByRecency(c.order, history)
    ensures OrderedByRecency(Apply(c, a).order, history + [a.key])
  {
    var k := a.key;
    var h := history + [k];
    match a
    case Lookup(_) =>
      if k in c.handles {
        TouchKeepsRecency(c.order, k, history);
      } else {
        forall i | 0 <= i < |c.order| ensures LastUse(h, c.order[i]) == LastUse(history, c.order[i]) {
          LastUseOther(history, k, c.order[i]);
        }
      }
    case Insert(_, v) =>
      TouchKeepsRecency(c.order, k, history);
      var t := Touch(c.order, k);
      if k !in c.handles && Size(c) == c.maxOpen {
        assert c.order + [k] == t;
        assert Apply(c, a).order == t[1..];
        DropEldestKeepsRecency(t, h);
      } else {
        assert Apply(c, a).order == t;
      }
  }

  /** Evicting the front entry keeps the rest ordered by recency. */
  lemma DropEldestKeepsRecency<K(!new)>(s: seq<K>, history: seq<K>)
    requires s != [] && OrderedByRecency(s, history)
    ensures OrderedByRecency(s[1..], history)
  {
    assert forall i :: 0 <= i < |s[1..]| ==> s[1..][i] == s[i + 1];
  }

  /**
   Starting from a fresh cache, after any sequence of lookups and inserts the
   cache's order is strictly increasing in time of last access; so the entry
   at the front, the one `Put` evicts, is the least recently used one.
   */
  lemma {:induction false} ReplayOrderedByRecency<K(!new), V>(maxOpen: nat, accesses: seq<Access<K, V>>)
    ensures OrderedByRecency(Replay(New(maxOpen), accesses).order, AccessedKeys(accesses))
    decreases |accesses|
  {
    if accesses != [] {
      var prefix := accesses[..|accesses| - 1];
      ReplayOrderedByRecency(maxOpen, prefix);
      assert AccessedKeys(accesses) == AccessedKeys(prefix) + [accesses[|accesses| - 1].key];
      ApplyKeepsRecency(Replay(New(maxOpen), prefix), accesses[|accesses| - 1], AccessedKeys(prefix));
    }
  }

  /**
   The victim of an eviction was used less recently than every entry that
   stays, the inserted key included.
   */
  lemma EvictsLeastRecentlyUsed<K(!new), V>(c: Lru<K, V>, k: K, v: V, history: seq<K>)
    requires Valid(c) && OrderedByRecency(c.order, history)
    requires Put(c, k, v).evicted.Some?
    ensures var r := Put(c, k, v);
            forall x :: x in r.cache.handles ==>
              LastUse(history + [k], r.evicted.value.0) < LastUse(history + [k], x)
  {
    var r := Put(c, k, v);
    var h := history + [k];
    var t := c.order + [k];
    assert k !in c.handles && Size(c) == c.maxOpen;
    assert Remove(c.order, k) == c.order;
    assert Touch(c.order, k) == t;
    TouchKeepsRecency(c.order, k, history);
    assert r.evicted.value.0 == t[0];
    assert r.cache.order == t[1..];
    forall x | x in r.cache.handles ensures LastUse(h, t[0]) < LastUse(h, x) {
      assert x in t[1..];
      var j :| 0 <= j < |t[1..]| && t[1..][j] == x;
      assert t[j + 1] == x;
    }
  }
}
